=== FILE: README.md ===
# Telegram support and moderation bot — a Dafny model

This project models the decision layer of a Telegram bot. The bot does two jobs:

- **Customer support.** A user's private message is filed as a complaint and forwarded to the admin. The admin answers with `/reply <id> <text>`.
- **Group moderation.** The bot runs a chain of gates over every group message. It blocks posts while the group is closed. It warns, then mutes, anyone who uses a banned word. It answers keyword-triggered auto-responses, and it deletes unauthorised links.

The model is functional. Every handler is a pure function of:

- the incoming event (a `Message` or a `CallbackQuery`);
- an abstract store (`Database.Store`: users, complaints, banned words, auto-responses, the warning log and the group settings);
- the clock (milliseconds, passed in as a parameter);
- the success or failure of the platform calls the source guards (`Platform.Outcomes`).

Each handler returns the new store and the sequence of outbound platform calls (`Platform.Action`: Send, Delete, Restrict, Kick, Unban, AnswerCallback).

The modules follow the source files:

| module | source file |
|---|---|
| `Text` | JavaScript string behaviour: `split`, `join`, `includes`, `startsWith`, `toLowerCase`, decimal number text |
| `Common` | `Option` and JavaScript falsiness |
| `Database` | src/database.js |
| `Keyboards` | src/utils/keyboards.js |
| `Helpers` | src/utils/helpers.js |
| `Platform` | events and the action log |
| `Commands` | the `/reply`, `/addban`, `/removeban` and `/addresponse` parsing shared by several handlers |
| `AutoResponses` | src/handlers/auto-responses.js |
| `GroupManagement` | src/handlers/group-management.js |
| `Admin` | rc/handlers/admin.js |
| `CustomerSupport` | src/handlers/customer-support.js |
| `Bot` | src/bot.js |
| `Webhook` | api/webhook.js, the deployed entry point with its own in-file store wrapper |
| `WarningCycle` | the warn-then-mute cycle of the banned-word handler over several messages |
| `Scenarios` | properties that chain several handlers |

## Model

| member | source | states |
|---|---|---|
| Common.StrOr | src/handlers/customer-support.js:18 | JavaScript `or` with a text fallback: the result is empty only when the value is falsy and the fallback is empty; a non-empty result is the value when that is truthy, otherwise the fallback |
| Common.IntOr | rc/handlers/admin.js:108-109 | JavaScript `or` with a number fallback: the result is either the fallback or the present value, and it is 0 only when the value is missing or 0 and the fallback is 0 |
| Database.AddUser | src/database.js:31-42 | upsert: the user's row is replaced by the new one, other rows and tables are untouched |
| Database.AddComplaint | src/database.js:54-65 | appends one `pending` row with the given user, username and text, under an id larger than every id already in use; nothing else changes |
| Database.UpdateComplaintStatus | src/database.js:76-82 | rows whose id matches get the new status, every other row and every other field stays as it was |
| Database.UpdateComplaintStatusIdempotent | src/database.js:76-82 | setting the same status twice is the same as once |
| Database.AddBannedWord | src/database.js:85-90 | the lower-cased word is added and nothing else; a lower-case list stays lower-case |
| Database.RemoveBannedWord | src/database.js:99-105 | exactly the entries equal to the lower-cased word are removed |
| Database.AddThenRemoveBannedWord | src/database.js:85-105 | adding a word and removing it in any letter case leaves no entry for it and keeps every other word |
| Database.AddAutoResponse | src/database.js:108-116 | appends one row with the lower-cased trigger and the response unchanged |
| Database.RemoveAutoResponse | src/database.js:125-131 | removes exactly the rows whose trigger equals the lower-cased argument |
| Database.RemoveTriggerAppend | src/database.js:125-131 | deleting from a table with one more row at the end deletes from the old rows and keeps the new row unless its trigger matches |
| Database.AddThenRemoveAutoResponse | src/database.js:108-131 | removing a trigger right after adding it, in any letter case, gives the same table as removing it alone |
| Database.UserWarnings | src/database.js:145-151 | a user's warnings are exactly the log entries carrying that user's id |
| Database.UserWarningsAppend | src/database.js:134-151 | appending a warning extends the log of its user only, by that entry |
| Database.UserWarningsWithout | src/database.js:153-159 | deleting a user's entries empties that user's log and leaves every other user's log as it was |
| Database.AddWarning | src/database.js:134-143 | the user's log grows by exactly the new entry; every other user's log and every other table is unchanged |
| Database.ClearUserWarnings | src/database.js:153-159 | the user's log is empty afterwards; other users' logs are unchanged |
| Database.UpdateGroupSettings | src/database.js:170-175 | on the model's single settings row: every field given overwrites, every field not given keeps its stored value, and nothing else in the store changes |
| Database.UpdateGroupSettingsIdempotent | src/database.js:170-175 | on the single settings row, applying the same patch twice is the same as once |
| Database.MaxWarnings | src/handlers/group-management.js:18 | the stored `max_warnings` when it is present and non-zero; 3 when settings or the field are missing or the field is 0 |
| Database.MuteMinutes | src/handlers/group-management.js:22 | the stored `mute_duration` when it is present and non-zero; 60 when settings or the field are missing or the field is 0 |
| Keyboards.MainMenuKeyboard | src/utils/keyboards.js:2-18 | rows of 2, 2 and 1 buttons carrying `new_complaint`, `check_status`, `contact_info`, `faq`, `main_menu` |
| Keyboards.AdminKeyboard | src/utils/keyboards.js:20-41 | four rows of two buttons whose eight callback data are distinct |
| Keyboards.ComplaintAdminKeyboard | src/utils/keyboards.js:43-56 | encodes `reply_complaint_<id>`, `close_complaint_<id>`, `user_info_<user>`, `user_history_<user>` in two rows of two |
| Keyboards.GroupModerationKeyboard | src/utils/keyboards.js:58-74 | the user id behind `warn_`, `mute_`, `kick_`, `ban_`, `info_`, in rows of 2, 2, 1 |
| Keyboards.BroadcastKeyboard | src/utils/keyboards.js:76-89 | two rows of two buttons with distinct callback data |
| Keyboards.ConfirmationKeyboard | src/utils/keyboards.js:91-100 | encodes `confirm_<action>_<target>` and `cancel_<action>` in one row |
| Keyboards.TaggedSplit | src/utils/keyboards.js:58-100 | `<tag>_<id>` splits on `_` back into the tag and the id when neither holds `_` |
| Keyboards.GroupModerationDataSplit | src/utils/keyboards.js:58-74 | every moderation button splits on `_` into its verb and the member id as decimal text |
| Keyboards.ConfirmationDataSplit | src/utils/keyboards.js:91-100 | the confirm button splits into `confirm`, the action and the target; the cancel button into `cancel` and the action |
| Commands.ParseReply | src/bot.js:95-98 | the target is a space-free token; either the text is exactly `/reply ` + target and the reply is empty, or it is `/reply ` + target, one space and the reply |
| Commands.ReplySplit | src/bot.js:96-98 | the second space-separated token and the remaining tokens joined by single spaces rebuild the command text |
| Commands.ReplyRoundTrip | src/bot.js:95-98 | `/reply <target> <body>` parses back to that target and body for any space-free target |
| Commands.SecondToken | rc/handlers/admin.js:133 | `split(' ')[1]` is space-free |
| Commands.SecondTokenOf | rc/handlers/admin.js:132-142 | the word after a command is recovered whether or not more text follows it |
| Commands.ParseAddResponse | rc/handlers/admin.js:144-147 | a pair is returned exactly when the text after the command splits on the vertical-bar separator into two parts, and then the command is `/addresponse `, the trigger, the separator and the response |
| Commands.AddResponseRoundTrip | rc/handlers/admin.js:144-149 | a trigger and a response free of vertical bars survive encoding and parsing |
| Commands.AddResponseThreePartsRejected | rc/handlers/admin.js:145-146 | a text whose tail holds two separators, between three bar-free pieces, is rejected |
| Helpers.FormatUserMention | src/utils/helpers.js:3-6 | for a first name not starting with `@`, the mention starts with `@` exactly when a username is set, and then the rest is that username; otherwise it starts with the first name, ends with the last name after a space when there is one, and is the first name alone when there is not |
| Helpers.MentionIdentifiesUsername | src/utils/helpers.js:3-6 | two users with usernames get the same mention only when their usernames are equal |
| Helpers.EscapeMarkdown | src/utils/helpers.js:20-22 | the output grows by exactly one backslash per special character |
| Helpers.EscapeRoundTrip | src/utils/helpers.js:20-22 | dropping each escaping backslash gives back the input: only the special characters were escaped, and nothing was lost |
| Helpers.EscapeConcat | src/utils/helpers.js:20-22 | escaping works character by character: escaping a concatenation is the concatenation of the escapes |
| Helpers.FirstDigitIndex | src/utils/helpers.js:50-53 | the position of the first decimal digit, with no digit before it, or none when there is no digit |
| Helpers.DigitRun | src/utils/helpers.js:50-53 | the maximal run of digits at the front of the text |
| Helpers.ExtractUserId | src/utils/helpers.js:50-53 | `null` exactly when the text has no digit |
| Helpers.ExtractUserIdRoundTrip | src/utils/helpers.js:50-53 | a number written after digit-free text and before a non-digit is extracted exactly |
| Helpers.Recent | src/utils/helpers.js:72 | keeps each timestamp with `now - t < window` as many times as it occurs, and no other, in the original order |
| Helpers.RecentIdempotent | src/utils/helpers.js:72 | filtering twice for the same clock is filtering once |
| Helpers.IsRateLimited | src/utils/helpers.js:67-81 | limited iff the recent count reaches the limit, and then nothing is recorded; otherwise the stored list is the recent timestamps, each with its multiplicity, plus one more `now`, at most `limit` of them; other users untouched |
| Helpers.IsRateLimitedByDefault | src/utils/helpers.js:67-81 | with the default arguments, limited iff the user already has 5 requests within the last 60000 ms; otherwise the user keeps between 1 and 5 stored timestamps; other users untouched |
| Helpers.RateTableStaysBounded | src/utils/helpers.js:69-79 | with a fixed limit, no user's stored list ever exceeds the limit |
| Helpers.CleanRateLimiter | src/utils/helpers.js:84-94 | a user stays iff one of their timestamps is within 60000 ms, and then keeps exactly those, each as many times as before |
| Helpers.CleanRateLimiterIdempotent | src/utils/helpers.js:84-94 | cleaning twice at the same clock is cleaning once |
| AutoResponses.EmptyWordMatchesEverything | src/handlers/auto-responses.js:22-26 | a trigger with an empty word fires on every message |
| AutoResponses.DoubleSpaceGivesEmptyWord | src/handlers/auto-responses.js:23 | two consecutive spaces in a trigger produce an empty word |
| AutoResponses.PhraseFiresTrigger | src/handlers/auto-responses.js:22-26 | a message containing the whole trigger fires it |
| AutoResponses.SingleWordTrigger | src/handlers/auto-responses.js:22-26 | a one-word trigger fires iff the message contains it |
| AutoResponses.FirstMatchFrom | src/handlers/auto-responses.js:12-19 | the first matching row at or after a position, with no match before it, or none when nothing there matches |
| AutoResponses.FirstMatch | src/handlers/auto-responses.js:12-19 | the first matching row in list order, or none iff no row matches |
| AutoResponses.CheckAndRespond | src/handlers/auto-responses.js:2-20 | at most one reply; none when the list is missing or nothing matches the lower-cased text; otherwise the first match's response, threaded to the message |
| AutoResponses.DefaultRows | src/handlers/auto-responses.js:30-47 | the four default triggers in their listed order |
| AutoResponses.DefaultTriggersAreLowerCase | src/handlers/auto-responses.js:30-47 | the default triggers are already lower case, so the store keeps them verbatim |
| AutoResponses.SetupDefaultResponses | src/handlers/auto-responses.js:29-52 | exactly the four default rows are appended after the existing ones, in order |
| GroupManagement.MuteUntil | src/handlers/group-management.js:22-27 | `floor((now + d*60000)/1000)` equals `floor(now/1000) + 60*d` |
| GroupManagement.HandleBannedWord | src/handlers/group-management.js:2-45 | deletes first; under the limit, only the `count/max` notice and one more warning; at the limit, a restriction until `now/1000 + 60*d`, then the mute notice, and the log is cleared only when both calls succeed; other users untouched |
| GroupManagement.RecordWarning | src/handlers/group-management.js:10-36 | the sender's log gains one `Used banned word` entry, or is emptied when the mute went through; other users and the rest of the store are untouched |
| GroupManagement.HandleLink | src/handlers/group-management.js:47-60 | delete then notice, never a restriction; one warning for the sender in the same log the banned-word path counts |
| GroupManagement.KickUser | src/handlers/group-management.js:62-71 | kick first, unban only after a successful kick, true iff both succeed |
| GroupManagement.BanUser | src/handlers/group-management.js:73-81 | only a kick; true iff it succeeds |
| Admin.ComplaintDataSplit | rc/handlers/admin.js:42 | `<word>_complaint_<rest>` splits on `_` into the word, `complaint`, then the pieces of the rest |
| Admin.ComplaintKey | rc/handlers/admin.js:41-46 | `split('_')[2]` is the `_`-free piece right after the prefix, ending at the end of the data or at the next `_` |
| Admin.ParseAdminCallback | rc/handlers/admin.js:19-49 | each of the five panel keys is recognised exactly; otherwise a `reply_complaint_` or `close_complaint_` prefix selects the complaint action and its key; anything else is unhandled |
| Admin.ComplaintKeyOf | rc/handlers/admin.js:42-45 | an `_`-free key is recovered exactly from `<word>_complaint_<key>` |
| Admin.ReplyComplaintRoundTrip | rc/handlers/admin.js:41-43 | `reply_complaint_<key>` parses back to the reply action for that key |
| Admin.CloseComplaintRoundTrip | rc/handlers/admin.js:44-46 | `close_complaint_<key>` parses back to the close action for that key |
| Admin.ComplaintCallbackRoundTrip | src/utils/keyboards.js:43-49 | the Reply and Close buttons of a complaint keyboard parse back to that complaint's id |
| Admin.NumberedHasEntry | rc/handlers/admin.js:69-71 | the numbered listing holds `<n>. <item>` for every item, numbered from the start in list order |
| Admin.BannedWordsListing | rc/handlers/admin.js:62-80 | the `No banned words set.` text iff the list is empty or missing; otherwise the header and `<k+1>. <word>` for every word |
| Admin.AutoResponsesListing | rc/handlers/admin.js:82-101 | the `No auto responses set.` text when empty; otherwise a numbered entry for every row |
| Admin.SettingsText | rc/handlers/admin.js:103-117 | shows `Closed` iff `is_closed` is set and `Open` otherwise, with the maximum warnings (default 3) and mute minutes (default 60) |
| Admin.ShowAdminPanel | rc/handlers/admin.js:4-13 | one message with the admin keyboard: four rows of two, distinct data |
| Admin.HandleAdminCallback | rc/handlers/admin.js:15-52 | exactly one callback answer, sent last; no other action iff the data is unhandled; the store changes only for a close, which closes exactly the rows whose id is the key; a complaint prompt shows the key |
| Admin.AdminCallbackEffects | rc/handlers/admin.js:19-49 | per callback kind: a panel or prompt message, nothing when unhandled; only a close changes the store, setting `closed` on exactly the rows whose id renders as the key |
| Admin.CloseComplaintIdempotent | rc/handlers/admin.js:163-166 | pressing Close twice leaves the same store as pressing it once |
| Admin.HandleGroupCommands | rc/handlers/admin.js:127-153 | only `/addban `, `/removeban ` and `/addresponse ` touch the store, with the second token or the two parts around the vertical-bar separator; a malformed `/addresponse` changes nothing; at most one message |
| Admin.AddBanCommandStoresWord | rc/handlers/admin.js:132-142 | after `/addban w` the lower-cased word is banned, and a following `/removeban w` removes it |
| Admin.AddResponseCommandStoresRow | rc/handlers/admin.js:144-150 | `/addresponse` with trigger t and response r appends exactly the row (lower-cased t, r) |
| Admin.AddResponseThreePartsIgnored | rc/handlers/admin.js:144-150 | `/addresponse` followed by three bar-free pieces joined by two separators leaves the store as it was and sends nothing |
| CustomerSupport.HandleStart | src/handlers/customer-support.js:4-14 | one message to the chat carrying the main-menu keyboard |
| CustomerSupport.HandleComplaint | src/handlers/customer-support.js:16-49 | on a store error, only the apology and no store change; otherwise one pending row under a fresh id, a confirmation showing `#id`, and an admin notice with `#id`, `/reply <user>` and the complaint keyboard for that id and user |
| CustomerSupport.SendReplyToUser | src/handlers/customer-support.js:51-62 | true iff the send succeeds; one message to the target containing the reply verbatim |
| CustomerSupport.HandleUserCallback | src/handlers/customer-support.js:64-90 | answered exactly once, last; a message first iff the data is one of the four handled keys |
| CustomerSupport.MainMenuDispatch | src/handlers/customer-support.js:68-87 | among the main-menu buttons, only `main_menu` gets nothing but the answer |
| Bot.ScanLinks | src/bot.js:207-210 | finds a link marker followed by a non-space at or after a position iff one exists |
| Bot.HasLink | src/bot.js:207-210 | the link test holds iff the lower-cased text has `http://`, `https://`, `www.` or `t.me/` followed by a non-whitespace character |
| Bot.LowerKeepsMarker | src/bot.js:208 | lower-casing keeps a lower-case marker and the non-space character after it in place |
| Bot.MarkerMakesLink | src/bot.js:207-210 | any of the four markers followed by a non-whitespace character, anywhere in any letter case, is a link |
| Bot.HandleAdminPrivateMessage | src/bot.js:91-103 | only `/reply ` acts: the reply goes to the parsed target, then the success notice goes to the admin whatever the delivery did; the store is untouched |
| Bot.HandleAdminGroupCommands | src/bot.js:145-160 | exact `/closegroup` closes and `/opengroup` opens the group, with one notice, keeping the stored maximum warnings and mute duration; any other text is handed to the group commands |
| Bot.HandleGroupMessage | src/bot.js:105-143 | the gates run in order: admin commands only; closed group gives delete then notice; a banned word runs only the banned-word handler; otherwise the auto-response, then the link check; a restriction only comes from the banned-word gate |
| Bot.HandleMessage | src/bot.js:67-89 | no text means nothing happens; private text goes to the admin handler or the complaint handler; other chats act only when the id text equals the configured group |
| Bot.PrivateTextIsFiled | src/bot.js:76-81 | any private text from a non-admin, commands included, is stored as a pending complaint |
| Bot.OtherChatsIgnored | src/bot.js:86-88 | a non-private message outside the configured group changes nothing |
| Bot.HandleCallbackQuery | src/bot.js:162-172 | the admin's callbacks go to the admin handler, everyone else's to the user handler; exactly one answer either way |
| Bot.HandleStartCommand | src/bot.js:53-65 | the user is upserted; the menu is sent only in a private chat |
| Webhook.WebhookAddUser | api/webhook.js:16-34 | only a working client whose upsert succeeds writes the row; never throws |
| Webhook.WebhookAddComplaint | api/webhook.js:36-55 | a working client stores a pending row and returns its id or an error; a missing or throwing client returns a fallback id below 1000 and stores nothing |
| Webhook.ComplaintIdText | api/webhook.js:147 | the id as text, or `Unknown` when there is no data or the id is 0 |
| Webhook.BranchesExclusive | api/webhook.js:94-138 | `/start`, the admin `/reply` and a complaint exclude each other |
| Webhook.HandleWebhookMessage | api/webhook.js:90-173 | exact `/start` upserts and welcomes; the admin's `/reply` notifies success, or failure when the delivery fails; a non-command private text from anyone is filed, confirmed with `#id` and forwarded with `/reply <sender>` when `ADMIN_ID` is set; anything else does nothing |
| Webhook.WebhookAdminReply | api/webhook.js:118-134 | the reply goes to the target with the body inside, the store is untouched, and the admin hears success, or failure when the delivery fails |
| Webhook.WebhookComplaint | api/webhook.js:137-172 | the complaint is stored, the confirmation shows `#id` and the text, and the admin notice with `#id` and `/reply <sender>` follows only when `ADMIN_ID` is set and the confirmation went out |
| Webhook.AdminNotice | api/webhook.js:161-165 | the admin's notice carries the complaint's `#id` and the `/reply <sender id>` command |
| Webhook.HandleRequest | api/webhook.js:58-88 | non-POST gives 405 and no action; no token gives 500; otherwise a message takes precedence over a callback, which is only answered, and the status is 200 unless a last-resort call fails: 500 exactly when the message ends in a catch-block send, or when the update is a callback |
| Webhook.CatchSendIsLast | api/webhook.js:90-173 | the message handler's last send is one of the three catch-block notes exactly when a guarded call failed |
| Webhook.FailedAnswerGives500 | api/webhook.js:75-86 | a callback update whose answer is rejected gets a 500 |
| Webhook.HandleRequestGuarded | api/webhook.js:58-88 | the same store and calls as the handler as written, and 200 for every POST with a bot token |
| Webhook.ComplaintIdShown | api/webhook.js:37-53 | a working store always shows a real id; a missing client shows `Unknown` exactly when the random draw is 0 |
| WarningCycle.ThreeStrikes | src/handlers/group-management.js:10-44 | with a limit of 3 and a clean log, the counts go 1 and 2, then a mute and an empty log, then back to 1 |
| WarningCycle.OneStrike | src/handlers/group-management.js:10-20 | a banned message below the limit adds exactly one entry to the sender's record, restricts no one and keeps the settings |
| WarningCycle.ChainCount | src/handlers/group-management.js:10-20 | below the limit, `i` banned messages from a clean record leave `i` entries |
| WarningCycle.KthStrike | src/handlers/group-management.js:10-36 | for any limit, the `k`-th banned message below it brings the count to `k` with no restriction, and the one reaching it restricts the sender and clears the log |
| Scenarios.FileThenClose | rc/handlers/admin.js:44-46 | the Close button attached to a new complaint's notice closes exactly that complaint |
| Scenarios.CloseNewest | rc/handlers/admin.js:44-46 | closing the newest complaint, whose id is the largest, changes that row's status and no other row |
| Scenarios.AirdropTriggerWords | src/handlers/auto-responses.js:32 | the first default trigger lists `fake` among its words |
| Scenarios.FakeGetsAirdropNotice | src/handlers/auto-responses.js:12-19 | after the defaults are set up, a message mentioning `fake` gets the airdrop notice, the first default, even though the scam row also lists `fake` |
| Text.IntToStringInjective | rc/handlers/admin.js:163-164 | different ids have different decimal texts, so a complaint key names at most one id |

## Left out

- Lower-casing covers ASCII letters only; JavaScript's `toLowerCase` and the `/i` flag of the link regex also fold non-ASCII letters.
- Message prose is shortened and carries no emoji. Contracts state only the parts a reader relies on: ids, `#<id>`, `/reply <id>`, reply text, counts and status words.
- Platform calls that the source makes outside any `try` are modelled as succeeding. A rejection there would abort the handler, and that abort is not modelled. Only calls inside a `try` (the mute, the restriction notice, `sendReplyToUser`, `kickUser`/`banUser`, the webhook's guarded sends and store calls) take failure flags. The webhook's last-resort calls, the sends inside its `catch` blocks and `answerCallbackQuery`, take the flag `rescueOk`.
- Store reads are modelled as always answering: `getGroupSettings`, `getBannedWords`, `getAutoResponses` and `getUserWarnings` read the current `Store`.
- CustomerSupport.HandleComplaint: assumes the store hands back the inserted row. The shown `addComplaint` has no `.select()`, so a real client may return no data, and `data[0].id` would then throw.
- CustomerSupport.HandleComplaint: when `ADMIN_ID` is unset, the model records no admin notice. The source still calls `sendMessage` with an undefined chat.
- Complaint keys are compared with ids through their canonical decimal text. The store's own coercion of a text key to a number, for example `007`, is not modelled.
- Store writes in src/bot.js and its handlers (`addUser`, `addWarning`, `clearUserWarnings`, `addBannedWord`, `removeBannedWord`, `addAutoResponse`, `updateComplaintStatus`, `updateGroupSettings`) are modelled as succeeding. The source ignores the `{ error }` they return, so a failed write would go unnoticed: the banned-word count would not grow, and the admin would still see "closed" for a complaint whose status was not changed. Only `addComplaint`'s error is modelled, because the complaint handler branches on it.
- Database.UpdateGroupSettings: the model assumes the group-settings table holds at most one row and that the keyless `upsert` merges the given fields into it. The table's schema comes from the `create_group_settings_table` procedure, which is not part of this model. If that table had a generated key, each `/closegroup` or `/opengroup` would insert another row, and `getGroupSettings`'s `.single()` would then return no data: the group would read as open with the defaults 3 and 60. That outcome is not modelled.
- Helpers.ExtractUserId: the digit run is read as an exact integer. JavaScript's `parseInt` rounds runs above 2^53 to the nearest double, which is not modelled.
- Helpers.ExtractUserIdRoundTrip: holds for every integer in the model; in JavaScript it holds only up to 2^53, because `parseInt` rounds beyond that.
- `parseInt(ADMIN_ID)` is modelled as an optional integer (`BotConfig.adminId`), independent of the raw text the webhook compares against. Precision loss for very large ids is not modelled.
- The Supabase query builders and `initTables` are left out: they are foreign RPC and HTTP. Only their effect on the abstract store is modelled.
- The bot constructor, `setupHandlers`, the `onText` wiring, the `/admin` command hook and `handleWebhook` are left out: they are SDK listener registration and an HTTP reply. Routing is modelled directly by `Bot.HandleMessage`, `Bot.HandleCallbackQuery` and `Bot.HandleStartCommand`.
- `handleJoinRequest` and `handleUserLeft` are left out: they make only platform calls and send environment-dependent texts.
- `api/health.js`, `api/test.js`, `api/setwebhook.js` and `api/webhook-info.js` are left out: they are HTTP and SDK passthrough.
- `formatDate` (locale formatting), `formatFileSize` (floating point), `isValidUrl` (the `URL` class), `generateId` (randomness) and `isUserAdmin` (a network call) are left out. The webhook's `Math.random()` fallback id becomes the parameter `draw`, in [0, 1000).
- Concurrent deliveries racing on the warning log are not modelled; each update is handled on its own.
- `Date.now()` is the parameter `now`, in milliseconds.
- Two places where the written description of the bot differs from the code follow the code:
  - links add warnings to the same per-user log that the banned-word path counts;
  - a complaint that cannot be stored gets only an apology.

## Findings

| source | as written | input that shows it | evidently intended | confidence | as-written member | corrected member |
|---|---|---|---|---|---|---|
| api/webhook.js:75-86 | the callback answer and the sends inside `handleMessage`'s `catch` blocks are not guarded, so their rejection reaches the outer `catch`, which answers 500 | a POST carrying a callback query, with a bot token set, whose `answerCallbackQuery` rejects | every update the webhook could read is acknowledged with 200, as the success path and the catch blocks around each branch aim for | medium, not executed | Webhook.FailedAnswerGives500 | Webhook.HandleRequestGuarded |

=== FILE: admin.dfy ===
/** The admin's side: the control panel, the callback dispatch (five panels and
    the two complaint actions whose id is read back from the callback data), the
    panel texts built from the store, and the group commands that edit the
    banned-word and auto-response lists. */
module Admin {
  import opened Common
  import opened Text
  import opened Keyboards
  import opened Database
  import opened Platform
  import opened Commands

  // ---------------------------------------------------------------------------
  // Callback data

  datatype AdminCallback =
    | ComplaintsPanel
    | BannedWordsPanel
    | AutoResponsesPanel
    | GroupSettingsPanel
    | StatisticsPanel
    | ReplyComplaint(key: string)
    | CloseComplaint(key: string)
    | Unhandled

  /** `key` is what `data.split('_')[2]` yields after `prefix`: the longest
      `_`-free text following the prefix. */
  predicate KeyAfter(data: string, prefix: string, key: string)
  {
    && '_' !in key
    && StartsWith(data, prefix + key)
    && (|data| == |prefix| + |key| || data[|prefix| + |key|] == '_')
  }

  /** The split of `<word>_complaint_<rest>` on `_` is the word, `complaint`, and
      the split of the rest. */
  lemma ComplaintDataSplit(word: string, rest: string)
    requires '_' !in word
    ensures Split(word + "_complaint_" + rest, '_') == [word, "complaint"] + Split(rest, '_')
  {
    assert word + "_complaint_" + rest == word + ['_'] + ("complaint" + ['_'] + rest);
    SplitCons(word, '_', "complaint" + ['_'] + rest);
    assert '_' !in "complaint";
    SplitCons("complaint", '_', rest);
  }

  /** `data.split('_')[2]` for data that starts with `<word>_complaint_`. */
  function ComplaintKey(data: string, word: string): (key: string)
    requires '_' !in word
    requires StartsWith(data, word + "_complaint_")
    ensures KeyAfter(data, word + "_complaint_", key)
  {
    var n := |word| + 11;
    var rest := data[n..];
    assert data == word + "_complaint_" + rest;
    ComplaintDataSplit(word, rest);
    var key := Split(data, '_')[2];
    assert key == Split(rest, '_')[0];
    SplitHeadIsPrefix(rest, '_');
    assert data[..n + |key|] == word + "_complaint_" + key;
    key
  }

  /** The `switch` on the callback data with its `startsWith` fallbacks. */
  function ParseAdminCallback(data: string): (c: AdminCallback)
    ensures c.ComplaintsPanel? <==> data == "admin_complaints"
    ensures c.BannedWordsPanel? <==> data == "admin_banned_words"
    ensures c.AutoResponsesPanel? <==> data == "admin_auto_responses"
    ensures c.GroupSettingsPanel? <==> data == "admin_group_settings"
    ensures c.StatisticsPanel? <==> data == "admin_statistics"
    ensures c.ReplyComplaint? <==> StartsWith(data, ReplyComplaintPrefix)
    ensures c.CloseComplaint? <==> StartsWith(data, CloseComplaintPrefix)
    ensures c.ReplyComplaint? ==> KeyAfter(data, ReplyComplaintPrefix, c.key)
    ensures c.CloseComplaint? ==> KeyAfter(data, CloseComplaintPrefix, c.key)
  {
    assert ReplyComplaintPrefix == "reply" + "_complaint_";
    assert CloseComplaintPrefix == "close" + "_complaint_";
    assert StartsWith(data, ReplyComplaintPrefix) ==> data[0] == 'r';
    assert StartsWith(data, CloseComplaintPrefix) ==> data[0] == 'c';
    if data == "admin_complaints" then ComplaintsPanel
    else if data == "admin_banned_words" then BannedWordsPanel
    else if data == "admin_auto_responses" then AutoResponsesPanel
    else if data == "admin_group_settings" then GroupSettingsPanel
    else if data == "admin_statistics" then StatisticsPanel
    else if StartsWith(data, ReplyComplaintPrefix) then ReplyComplaint(ComplaintKey(data, "reply"))
    else if StartsWith(data, CloseComplaintPrefix) then CloseComplaint(ComplaintKey(data, "close"))
    else Unhandled
  }

  /** `split('_')[2]` reads back any `_`-free key written after
      `<word>_complaint_`. */
  lemma ComplaintKeyOf(word: string, key: string)
    requires '_' !in word && '_' !in key
    ensures StartsWith(word + "_complaint_" + key, word + "_complaint_")
    ensures ComplaintKey(word + "_complaint_" + key, word) == key
  {
    var data := word + "_complaint_" + key;
    assert data[..|word| + 11] == word + "_complaint_";
    ComplaintDataSplit(word, key);
    SplitOfPlain(key, '_');
  }

  /** `reply_complaint_<key>` dispatches to the reply prompt for that key. */
  lemma ReplyComplaintRoundTrip(key: string)
    requires '_' !in key
    ensures ParseAdminCallback(ReplyComplaintPrefix + key) == ReplyComplaint(key)
  {
    assert ReplyComplaintPrefix == "reply" + "_complaint_";
    ComplaintKeyOf("reply", key);
  }

  /** `close_complaint_<key>` dispatches to closing that key. */
  lemma CloseComplaintRoundTrip(key: string)
    requires '_' !in key
    ensures ParseAdminCallback(CloseComplaintPrefix + key) == CloseComplaint(key)
  {
    assert CloseComplaintPrefix == "close" + "_complaint_";
    ComplaintKeyOf("close", key);
    var data := CloseComplaintPrefix + key;
    assert data[0] == 'c';
  }

  /** The buttons of a complaint's admin keyboard parse back to the complaint's
      id, as text, for every complaint id. */
  lemma ComplaintCallbackRoundTrip(complaintId: int, userId: int)
    ensures var ds := CallbackData(ComplaintAdminKeyboard(complaintId, userId));
      && ParseAdminCallback(ds[0]) == ReplyComplaint(IntToString(complaintId))
      && ParseAdminCallback(ds[1]) == CloseComplaint(IntToString(complaintId))
  {
    var id := IntToString(complaintId);
    IntToStringAvoids(complaintId, '_');
    ReplyComplaintRoundTrip(id);
    CloseComplaintRoundTrip(id);
  }

  // ---------------------------------------------------------------------------
  // Panel texts

  const NumberDot: string := ". "
  const LineEnd: string := "\n"

  /** One numbered line, `<n>. <item>\n`. */
  function NumberedLine(n: int, item: string): string
  {
    IntToString(n) + NumberDot + item + LineEnd
  }

  /** The items numbered from `start` in list order, one line each. */
  function Numbered(items: seq<string>, start: int): string
  {
    Concat(seq(|items|, i requires 0 <= i < |items| => NumberedLine(start + i, items[i])))
  }

  /** Every item appears in the listing, on its own line, under its number. */
  lemma NumberedHasEntry(items: seq<string>, start: int, k: nat)
    requires k < |items|
    ensures Contains(Numbered(items, start), NumberedLine(start + k, items[k]))
  {
    var lines := seq(|items|, i requires 0 <= i < |items| => NumberedLine(start + i, items[i]));
    ConcatHasPart(lines, k);
  }

  const BannedWordsHeader: string := "Banned Words Management\n\n"
  const BannedWordsFooter: string := "\n\nTo add a banned word: /addban <word>\nTo remove a banned word: /removeban <word>"

  /** The banned-word panel for the list the store returned (`None` when it
      returned no data). */
  function BannedWordsListing(words: Option<seq<string>>): (text: string)
    ensures words.None? || |words.value| == 0 ==>
      text == BannedWordsHeader + "No banned words set." + BannedWordsFooter
    ensures words.Some? && |words.value| > 0 ==>
      StartsWith(text, BannedWordsHeader + "Current banned words:\n")
    ensures words.Some? ==> forall k :: 0 <= k < |words.value| ==>
      Contains(text, NumberedLine(k + 1, words.value[k]))
  {
    if words.Some? && |words.value| > 0 then
      var pre := BannedWordsHeader + "Current banned words:\n";
      var lines := Numbered(words.value, 1);
      var text := pre + lines + BannedWordsFooter;
      ListingFacts(pre, lines, BannedWordsFooter);
      forall k | 0 <= k < |words.value|
        ensures Contains(text, NumberedLine(k + 1, words.value[k]))
      {
        NumberedHasEntry(words.value, 1, k);
        ContainsTransitive(text, lines, NumberedLine(k + 1, words.value[k]));
      }
      text
    else
      BannedWordsHeader + "No banned words set." + BannedWordsFooter
  }

  /** A listing starts with its heading and contains its lines. */
  lemma ListingFacts(pre: string, lines: string, post: string)
    ensures StartsWith(pre + lines + post, pre)
    ensures Contains(pre + lines + post, lines)
  {
    assert (pre + lines + post)[..|pre|] == pre;
    ContainsInfix(pre, lines, post);
  }

  /** One auto-response entry after its number. */
  function ResponseEntry(row: AutoResponse): string
  {
    "Trigger: \"" + row.trigger + "\"\n   Response: \"" + row.response + "\"\n"
  }

  const AutoResponsesHeader: string := "Auto Responses Management\n\n"
  const AutoResponsesFooter: string := "\nTo add auto response: /addresponse <trigger> | <response>\nTo remove auto response: /removeresponse <trigger>"

  /** The auto-response panel: every row's trigger and response under its number
      from 1, or "No auto responses set.". */
  function AutoResponsesListing(rows: Option<seq<AutoResponse>>): (text: string)
    ensures rows.None? || |rows.value| == 0 ==>
      text == AutoResponsesHeader + "No auto responses set." + AutoResponsesFooter
    ensures rows.Some? ==> forall k :: 0 <= k < |rows.value| ==>
      Contains(text, NumberedLine(k + 1, ResponseEntry(rows.value[k])))
  {
    if rows.Some? && |rows.value| > 0 then
      var entries := seq(|rows.value|, k requires 0 <= k < |rows.value| => ResponseEntry(rows.value[k]));
      var pre := AutoResponsesHeader + "Current auto responses:\n";
      var lines := Numbered(entries, 1);
      var text := pre + lines + AutoResponsesFooter;
      ListingFacts(pre, lines, AutoResponsesFooter);
      forall k | 0 <= k < |rows.value|
        ensures Contains(text, NumberedLine(k + 1, ResponseEntry(rows.value[k])))
      {
        NumberedHasEntry(entries, 1, k);
        ContainsTransitive(text, lines, NumberedLine(k + 1, entries[k]));
      }
      text
    else
      AutoResponsesHeader + "No auto responses set." + AutoResponsesFooter
  }

  const StatusPrefix: string := "Group Settings\n\nGroup Status: "
  const SettingsCommands: string := "\n\nCommands:\n/closegroup - Close group\n/opengroup - Open group\n/setwarnings <number> - Set max warnings\n/setmute <minutes> - Set mute duration"

  /** The settings panel: Closed iff the row says closed, then the limits with
      their defaults of 3 warnings and 60 minutes. */
  function SettingsText(settings: Option<Settings>): (text: string)
    ensures StartsWith(text, StatusPrefix + "Closed") <==> IsClosed(settings)
    ensures StartsWith(text, StatusPrefix + "Open") <==> !IsClosed(settings)
    ensures Contains(text, "Max Warnings: " + IntToString(MaxWarnings(settings)) + "\n")
    ensures Contains(text, "Mute Duration: " + IntToString(MuteMinutes(settings)) + " minutes")
  {
    var closed := IsClosed(settings);
    var status := if closed then "Closed" else "Open";
    var other := if closed then "Open" else "Closed";
    var warnings := "Max Warnings: " + IntToString(MaxWarnings(settings)) + "\n";
    var mute := "Mute Duration: " + IntToString(MuteMinutes(settings)) + " minutes";
    SettingsShape(StatusPrefix, status, other, warnings, mute, SettingsCommands);
    StatusPrefix + status + ("\n" + warnings + mute + SettingsCommands)
  }

  /** The facts about the settings panel's layout that do not depend on the values. */
  lemma SettingsShape(pre: string, status: string, other: string, warnings: string, mute: string, post: string)
    requires |status| > 0 && |other| > 0 && status[0] != other[0]
    ensures var text := pre + status + ("\n" + warnings + mute + post);
      && StartsWith(text, pre + status)
      && !StartsWith(text, pre + other)
      && Contains(text, warnings)
      && Contains(text, mute)
  {
    var text := pre + status + ("\n" + warnings + mute + post);
    StartsWithFirstDiffers(pre, status, other, "\n" + warnings + mute + post);
    ContainsInfix(pre + status + "\n", warnings, mute + post);
    assert pre + status + "\n" + warnings + (mute + post) == text;
    ContainsInfix(pre + status + "\n" + warnings, mute, post);
    assert pre + status + "\n" + warnings + mute + post == text;
  }

  const PendingComplaintsText: string := "Pending Complaints\n\nHere you can see all pending customer complaints."
  const StatisticsText: string := "Bot Statistics\n\nThis will show various statistics about bot usage."
  const AdminPanelText: string := "Admin Control Panel\n\nWelcome to the admin dashboard. Choose an option:"

  const ReplyPromptTail: string := "\n\nPlease send your reply in the format:\n/reply <user_id> Your response here"

  const ReplyPromptHead: string := "Reply to complaint "
  const ClosedHead: string := "Complaint "
  const ClosedTail: string := " has been closed."

  function ReplyPromptText(key: string): string
  {
    ReplyPromptHead + ("#" + key) + ReplyPromptTail
  }

  function ClosedText(key: string): string
  {
    ClosedHead + ("#" + key) + ClosedTail
  }

  /** The control panel: one message carrying the admin keyboard. */
  function ShowAdminPanel(chat: int): (actions: seq<Action>)
    ensures |actions| == 1 && actions[0].Send? && actions[0].to == ChatId(chat)
    ensures actions[0].keyboard.Some? && RowSizes(actions[0].keyboard.value) == [2, 2, 2, 2]
    ensures Distinct(CallbackData(actions[0].keyboard.value))
  {
    [Send(ChatId(chat), AdminPanelText, None, Some(AdminKeyboard()))]
  }

  // ---------------------------------------------------------------------------
  // Callback handling

  /** A callback pressed by the admin: the matching panel or complaint action,
      then exactly one callback answer, whatever the data. Only closing a
      complaint changes the store, and only the status of the complaints whose id
      renders as the key. */
  function HandleAdminCallback(q: CallbackQuery, st: Store): (r: Effects)
    ensures CountAnswers(r.actions) == 1
    ensures |r.actions| >= 1 && r.actions[|r.actions| - 1] == AnswerCallback(q.id)
    ensures ParseAdminCallback(q.data).Unhandled? <==> r.actions == [AnswerCallback(q.id)]
    ensures !ParseAdminCallback(q.data).CloseComplaint? ==> r.store == st
    ensures ParseAdminCallback(q.data).CloseComplaint? ==>
      var key := ParseAdminCallback(q.data).key;
      && |r.store.complaints| == |st.complaints|
      && (forall k :: 0 <= k < |st.complaints| && IntToString(st.complaints[k].id) == key ==>
            r.store.complaints[k] == st.complaints[k].(status := Closed))
      && (forall k :: 0 <= k < |st.complaints| && IntToString(st.complaints[k].id) != key ==>
            r.store.complaints[k] == st.complaints[k])
      && r.store.(complaints := st.complaints) == st
    ensures !ParseAdminCallback(q.data).Unhandled? ==>
      |r.actions| == 2 && r.actions[0].Send? && r.actions[0].to == ChatId(q.chat.id)
    ensures ParseAdminCallback(q.data).BannedWordsPanel? ==>
      r.actions[0] == Say(ChatId(q.chat.id), BannedWordsListing(Some(st.bannedWords)))
    ensures ParseAdminCallback(q.data).GroupSettingsPanel? ==>
      r.actions[0] == Say(ChatId(q.chat.id), SettingsText(st.settings))
    ensures ParseAdminCallback(q.data).ReplyComplaint? || ParseAdminCallback(q.data).CloseComplaint? ==>
      Contains(r.actions[0].text, "#" + ParseAdminCallback(q.data).key)
  {
    var e := AdminCallbackEffects(ParseAdminCallback(q.data), ChatId(q.chat.id), st);
    CountAnswersAppend(e.actions, [AnswerCallback(q.id)]);
    Effects(e.store, e.actions + [AnswerCallback(q.id)])
  }

  /** What one parsed admin callback does before the query is answered: a panel
      or prompt message for every handled kind, and a status change only when
      closing. */
  function AdminCallbackEffects(c: AdminCallback, chat: ChatRef, st: Store): (e: Effects)
    ensures CountAnswers(e.actions) == 0
    ensures c.Unhandled? <==> e.actions == []
    ensures !c.CloseComplaint? ==> e.store == st
    ensures c.CloseComplaint? ==>
      && |e.store.complaints| == |st.complaints|
      && (forall k :: 0 <= k < |st.complaints| && IntToString(st.complaints[k].id) == c.key ==>
            e.store.complaints[k] == st.complaints[k].(status := Closed))
      && (forall k :: 0 <= k < |st.complaints| && IntToString(st.complaints[k].id) != c.key ==>
            e.store.complaints[k] == st.complaints[k])
      && e.store.(complaints := st.complaints) == st
    ensures !c.Unhandled? ==> |e.actions| == 1 && e.actions[0].Send? && e.actions[0].to == chat
    ensures c.BannedWordsPanel? ==> e.actions[0] == Say(chat, BannedWordsListing(Some(st.bannedWords)))
    ensures c.GroupSettingsPanel? ==> e.actions[0] == Say(chat, SettingsText(st.settings))
    ensures c.ReplyComplaint? || c.CloseComplaint? ==> Contains(e.actions[0].text, "#" + c.key)
  {
    match c {
      case ComplaintsPanel => Effects(st, [Say(chat, PendingComplaintsText)])
      case BannedWordsPanel => Effects(st, [Say(chat, BannedWordsListing(Some(st.bannedWords)))])
      case AutoResponsesPanel => Effects(st, [Say(chat, AutoResponsesListing(Some(st.autoResponses)))])
      case GroupSettingsPanel => Effects(st, [Say(chat, SettingsText(st.settings))])
      case StatisticsPanel => Effects(st, [Say(chat, StatisticsText)])
      case ReplyComplaint(key) =>
        ContainsInfix(ReplyPromptHead, "#" + key, ReplyPromptTail);
        Effects(st, [Say(chat, ReplyPromptText(key))])
      case CloseComplaint(key) =>
        ContainsInfix(ClosedHead, "#" + key, ClosedTail);
        Effects(UpdateComplaintStatus(st, key, Closed), [Say(chat, ClosedText(key))])
      case Unhandled => Effects(st, [])
    }
  }

  /** Closing the same complaint twice leaves the store as closing it once. */
  lemma CloseComplaintIdempotent(q: CallbackQuery, st: Store)
    requires ParseAdminCallback(q.data).CloseComplaint?
    ensures HandleAdminCallback(q, HandleAdminCallback(q, st).store).store == HandleAdminCallback(q, st).store
  {
    UpdateComplaintStatusIdempotent(st, ParseAdminCallback(q.data).key, Closed);
  }

  // ---------------------------------------------------------------------------
  // Group commands

  /** `/addban`, `/removeban` and `/addresponse`, tested one after the other; the
      three prefixes exclude each other, so at most one acts. Any other text
      changes nothing and sends nothing. */
  function HandleGroupCommands(msg: Message, st: Store): (r: Effects)
    requires HasText(msg)
    ensures |r.actions| <= 1
    ensures forall a :: a in r.actions ==> a.Send?
    ensures var text := msg.text.value;
      !StartsWith(text, AddBanPrefix) && !StartsWith(text, RemoveBanPrefix) && !StartsWith(text, AddResponsePrefix)
      ==> r == Effects(st, [])
    ensures var text := msg.text.value;
      StartsWith(text, AddBanPrefix) ==> ' ' in text && r.store == AddBannedWord(st, SecondToken(text))
    ensures var text := msg.text.value;
      StartsWith(text, RemoveBanPrefix) ==> ' ' in text && r.store == RemoveBannedWord(st, SecondToken(text))
    ensures var text := msg.text.value;
      StartsWith(text, AddResponsePrefix) ==>
        (ParseAddResponse(text).None? <==> r == Effects(st, []))
        && (ParseAddResponse(text).Some? ==>
              r.store == AddAutoResponse(st, ParseAddResponse(text).value.0, ParseAddResponse(text).value.1))
  {
    var text := msg.text.value;
    var chat := ChatId(msg.chat.id);
    GroupCommandPrefixes(text);
    if StartsWith(text, AddBanPrefix) then
      var w := SecondToken(text);
      Effects(AddBannedWord(st, w), [Say(chat, "Added \"" + w + "\" to banned words list.")])
    else if StartsWith(text, RemoveBanPrefix) then
      var w := SecondToken(text);
      Effects(RemoveBannedWord(st, w), [Say(chat, "Removed \"" + w + "\" from banned words list.")])
    else if StartsWith(text, AddResponsePrefix) then
      match ParseAddResponse(text)
      case None => Effects(st, [])
      case Some((t, resp)) =>
        Effects(AddAutoResponse(st, t, resp), [Say(chat, "Added auto response for trigger \"" + t + "\".")])
    else Effects(st, [])
  }

  /** `/addresponse a | b | c` splits into three parts, so the group command
      changes nothing and sends nothing. */
  lemma AddResponseThreePartsIgnored(msg: Message, st: Store, a: string, b: string, c: string)
    requires '|' !in a && '|' !in b && '|' !in c
    requires msg.text == Some(AddResponsePrefix + a + BarSeparator + b + BarSeparator + c)
    ensures HasText(msg)
    ensures HandleGroupCommands(msg, st) == Effects(st, [])
  {
    AddResponseThreePartsRejected(a, b, c);
  }

  /** `/addban <word>` with a space-free word (and anything after it) stores that
      word in lower case; `/removeban <word>` in any case then removes it. */
  lemma AddBanCommandStoresWord(msg: Message, st: Store, word: string, more: string)
    requires ' ' !in word
    requires msg.text == Some(AddBanPrefix + word) || msg.text == Some(AddBanPrefix + word + " " + more)
    ensures HasText(msg)
    ensures Lower(word) in HandleGroupCommands(msg, st).store.bannedWords
    ensures var after := HandleGroupCommands(msg, st).store;
      var removal := msg.(text := Some(RemoveBanPrefix + word));
      HasText(removal) && Lower(word) !in HandleGroupCommands(removal, after).store.bannedWords
  {
    CommandWord("/addban", word, more, msg.text.value);
    var removal := msg.(text := Some(RemoveBanPrefix + word));
    CommandWord("/removeban", word, "", RemoveBanPrefix + word);
  }

  /** The text of a one-word command starts with the command and a space, and
      its second token is the word. */
  lemma CommandWord(command: string, word: string, more: string, text: string)
    requires ' ' !in command && ' ' !in word
    requires text == command + " " + word || text == command + " " + word + " " + more
    ensures StartsWith(text, command + " ")
    ensures ' ' in text && SecondToken(text) == word
  {
    SecondTokenOf(command, word, more);
    assert text[..|command| + 1] == command + " ";
  }

  /** `/addresponse <trigger> | <response>` with `|`-free parts stores the trigger
      in lower case and the response verbatim, after the existing rows. */
  lemma AddResponseCommandStoresRow(msg: Message, st: Store, trigger: string, response: string)
    requires '|' !in trigger && '|' !in response
    requires msg.text == Some(AddResponsePrefix + trigger + BarSeparator + response)
    ensures HasText(msg)
    ensures HandleGroupCommands(msg, st).store.autoResponses
         == st.autoResponses + [AutoResponse(Lower(trigger), response)]
  {
    var text := msg.text.value;
    AddResponseRoundTrip(trigger, response);
    assert text[..8] != AddBanPrefix by { assert text[4] == 'r'; }
    assert text[..11] != RemoveBanPrefix by { assert text[1] == 'a'; }
  }
}

=== FILE: auto_responses.dfy ===
/** Automatic replies in the group: a stored trigger fires when ANY of its
    space-separated words occurs in the lower-cased message; the first firing row
    in list order answers, threaded to the message, and nothing else is sent. */
module AutoResponses {
  import opened Common
  import opened Text
  import opened Database
  import opened Platform

  /** `trigger.split(' ').some(word => message.includes(word))`. */
  predicate MatchesTrigger(message: string, trigger: string)
  {
    exists w :: w in Split(trigger, ' ') && Contains(message, w)
  }

  /** A trigger with an empty word (two spaces in a row, or a leading or trailing
      space) fires on every message. */
  lemma EmptyWordMatchesEverything(message: string, trigger: string)
    requires "" in Split(trigger, ' ')
    ensures MatchesTrigger(message, trigger)
  {
    ContainsEmpty(message);
  }

  /** Two spaces in a row produce an empty word. */
  lemma DoubleSpaceGivesEmptyWord(a: string, b: string)
    requires ' ' !in a
    ensures "" in Split(a + "  " + b, ' ')
  {
    assert a + "  " + b == a + [' '] + ([' '] + b);
    SplitCons(a, ' ', [' '] + b);
    assert [' '] + b == [] + [' '] + b;
    SplitCons([], ' ', b);
    assert Split(a + "  " + b, ' ')[1] == "";
  }

  /** A message that contains the whole trigger phrase fires it. */
  lemma PhraseFiresTrigger(message: string, trigger: string)
    requires Contains(message, trigger)
    ensures MatchesTrigger(message, trigger)
  {
    var w := Split(trigger, ' ')[0];
    SplitHeadIsPrefix(trigger, ' ');
    ContainsPrefix(trigger, w);
    ContainsTransitive(message, trigger, w);
  }

  /** A one-word trigger fires exactly when the message contains it. */
  lemma SingleWordTrigger(message: string, trigger: string)
    requires ' ' !in trigger
    ensures MatchesTrigger(message, trigger) <==> Contains(message, trigger)
  {
    SplitOfPlain(trigger, ' ');
  }

  /** The index of the first row, at or after `from`, whose trigger fires. */
  function FirstMatchFrom(message: string, rows: seq<AutoResponse>, from: nat): (k: Option<nat>)
    requires from <= |rows|
    ensures k.Some? ==> from <= k.value < |rows| && MatchesTrigger(message, rows[k.value].trigger)
    ensures k.Some? ==> forall j :: from <= j < k.value ==> !MatchesTrigger(message, rows[j].trigger)
    ensures k.None? ==> forall j :: from <= j < |rows| ==> !MatchesTrigger(message, rows[j].trigger)
    decreases |rows| - from
  {
    if from == |rows| then None
    else if MatchesTrigger(message, rows[from].trigger) then Some(from)
    else FirstMatchFrom(message, rows, from + 1)
  }

  /** The index of the first row whose trigger fires, if any. */
  function FirstMatch(message: string, rows: seq<AutoResponse>): (k: Option<nat>)
    ensures k.Some? ==> k.value < |rows| && MatchesTrigger(message, rows[k.value].trigger)
    ensures k.Some? ==> forall j :: 0 <= j < k.value ==> !MatchesTrigger(message, rows[j].trigger)
    ensures k.None? <==> forall j :: 0 <= j < |rows| ==> !MatchesTrigger(message, rows[j].trigger)
  {
    FirstMatchFrom(message, rows, 0)
  }

  /** The reply for a group message, given the rows read from the store (`None`
      when the read returned no data): at most one send, carrying the response of
      the first firing row and threaded to the message. */
  function CheckAndRespond(msg: Message, rows: Option<seq<AutoResponse>>): (actions: seq<Action>)
    requires HasText(msg)
    ensures |actions| <= 1
    ensures rows.None? ==> actions == []
    ensures rows.Some? ==> (actions == [] <==>
      forall j :: 0 <= j < |rows.value| ==> !MatchesTrigger(Lower(msg.text.value), rows.value[j].trigger))
    ensures actions != [] ==> rows.Some? && FirstMatch(Lower(msg.text.value), rows.value).Some?
    ensures actions != [] ==>
      var k := FirstMatch(Lower(msg.text.value), rows.value).value;
      actions[0] == Send(ChatId(msg.chat.id), rows.value[k].response, Some(msg.messageId), None)
  {
    if rows.None? then []
    else
      match FirstMatch(Lower(msg.text.value), rows.value)
      case None => []
      case Some(k) => [Send(ChatId(msg.chat.id), rows.value[k].response, Some(msg.messageId), None)]
  }

  const DefaultTriggers: seq<string> := [
    "airdrop real fake legit",
    "scam fraud fake project",
    "wallet connect metamask trust",
    "price when moon lambo"]

  /** The four canned answers; their prose is shortened to the title line. */
  const DefaultReplies: seq<string> := [
    "**Airdrop Safety Notice** Always verify airdrops through official channels.",
    "**Scam Alert Guidelines** Always DYOR (Do Your Own Research)!",
    "**Wallet Security Tips** Never share seed phrases.",
    "**Price Discussion** We don't provide financial advice or price predictions."]

  /** The default rows, trigger and reply, in their listed order. */
  function DefaultRows(): (rows: seq<AutoResponse>)
    ensures |rows| == 4
    ensures forall k :: 0 <= k < 4 ==> rows[k].trigger == DefaultTriggers[k]
  {
    seq(4, k requires 0 <= k < 4 => AutoResponse(DefaultTriggers[k], DefaultReplies[k]))
  }

  lemma DefaultTriggersAreLowerCase()
    ensures forall k :: 0 <= k < 4 ==> Lower(DefaultTriggers[k]) == DefaultTriggers[k]
  {
    forall k | 0 <= k < 4
      ensures IsLowerCase(DefaultTriggers[k])
    {
      TriggerIsLowerCase(k);
    }
  }

  lemma TriggerIsLowerCase(k: nat)
    requires k < 4
    ensures IsLowerCase(DefaultTriggers[k])
  {
    if k == 0 {
      assert IsLowerCase(DefaultTriggers[0]);
    } else if k == 1 {
      assert IsLowerCase(DefaultTriggers[1]);
    } else if k == 2 {
      assert IsLowerCase(DefaultTriggers[2]);
    } else {
      assert IsLowerCase(DefaultTriggers[3]);
    }
  }

  /** `setupDefaultResponses`: the four default rows are appended, in their listed
      order, after whatever rows exist; their triggers are stored unchanged because
      they are already lower case. */
  function SetupDefaultResponses(s: Store): (r: Store)
    ensures r.autoResponses == s.autoResponses + DefaultRows()
    ensures r.(autoResponses := s.autoResponses) == s
  {
    DefaultTriggersAreLowerCase();
    var s1 := AddAutoResponse(s, DefaultTriggers[0], DefaultReplies[0]);
    var s2 := AddAutoResponse(s1, DefaultTriggers[1], DefaultReplies[1]);
    var s3 := AddAutoResponse(s2, DefaultTriggers[2], DefaultReplies[2]);
    var s4 := AddAutoResponse(s3, DefaultTriggers[3], DefaultReplies[3]);
    assert s4.autoResponses == s.autoResponses + DefaultRows();
    s4
  }
}

=== FILE: bot.dfy ===
/** The long-running bot's router: which handler each message and callback
    reaches (admin or customer in private, the configured group and nothing
    else), the group pipeline's gates in their fixed order, the admin's group
    commands, and the link test. */
module Bot {
  import opened Common
  import opened Text
  import opened Database
  import opened Platform
  import opened Commands
  import opened AutoResponses
  import opened GroupManagement
  import opened Admin
  import opened CustomerSupport

  /** The environment: `ADMIN_ID` read with `parseInt` (`None` when it is not a
      number, which no user id equals), the same variable as raw text (used as a
      send target), and `GROUP_ID` as raw text. */
  datatype BotConfig = BotConfig(adminId: Option<int>, adminEnv: Option<string>, groupId: Option<string>)

  /** `userId === this.adminId`. */
  predicate IsAdmin(cfg: BotConfig, userId: int)
  {
    cfg.adminId == Some(userId)
  }

  // ---------------------------------------------------------------------------
  // Links

  /** The characters `\s` matches in a JavaScript regular expression. */
  predicate IsJsSpace(c: char)
  {
    c == ' ' || c == '\t' || c == '\n' || c == '\U{000B}' || c == '\U{000C}' || c == '\r'
    || c == '\U{00A0}' || c == '\U{1680}' || ('\U{2000}' <= c <= '\U{200A}')
    || c == '\U{2028}' || c == '\U{2029}' || c == '\U{202F}' || c == '\U{205F}'
    || c == '\U{3000}' || c == '\U{FEFF}'
  }

  /** `marker` occurs at `i` and is followed by at least one non-space character. */
  predicate MarkerAt(t: string, marker: string, i: nat)
  {
    OccursAt(t, marker, i) && i + |marker| < |t| && !IsJsSpace(t[i + |marker|])
  }

  /** One of the four alternatives of the link pattern matches at `i`. */
  predicate LinkAt(t: string, i: nat)
  {
    MarkerAt(t, "http://", i) || MarkerAt(t, "https://", i) || MarkerAt(t, "www.", i) || MarkerAt(t, "t.me/", i)
  }

  /** The pattern `(https?://\S+|www\.\S+|t\.me/\S+)` with the `i` flag matches
      somewhere in the text. */
  predicate ContainsLink(text: string)
  {
    exists i: nat :: i < |text| && LinkAt(Lower(text), i)
  }

  /** The left-to-right search for a match from position `from` on. */
  function ScanLinks(t: string, from: nat): (found: bool)
    requires from <= |t|
    ensures found <==> exists i: nat :: from <= i < |t| && LinkAt(t, i)
    decreases |t| - from
  {
    if from == |t| then false
    else if LinkAt(t, from) then true
    else ScanLinks(t, from + 1)
  }

  /** `linkRegex.test(text)`. */
  function HasLink(text: string): (found: bool)
    ensures found <==> ContainsLink(text)
  {
    ScanLinks(Lower(text), 0)
  }

  /** A lower-case marker followed by a non-space character survives lower-casing
      of the whole text and matches where it stands. */
  lemma LowerKeepsMarker(pre: string, marker: string, c: char, post: string)
    requires IsLowerCase(marker) && !IsJsSpace(c)
    ensures MarkerAt(Lower(pre + marker + [c] + post), marker, |pre|)
  {
    var t := pre + marker + [c] + post;
    var lt := Lower(t);
    var n := |pre|;
    assert forall j :: 0 <= j < |marker| ==> t[n + j] == marker[j];
    assert lt[n..n + |marker|] == marker;
    assert t[n + |marker|] == c;
  }

  /** A link marker followed by a non-space character makes the text a link
      wherever it stands. */
  lemma MarkerMakesLink(pre: string, marker: string, c: char, post: string)
    requires marker == "http://" || marker == "https://" || marker == "www." || marker == "t.me/"
    requires !IsJsSpace(c)
    ensures ContainsLink(pre + marker + [c] + post)
  {
    assert IsLowerCase(marker);
    LowerKeepsMarker(pre, marker, c, post);
    assert LinkAt(Lower(pre + marker + [c] + post), |pre|);
  }

  // ---------------------------------------------------------------------------
  // Private messages

  const ReplySentText: string := "Reply sent successfully!"

  /** The admin in private: only `/reply <target> <text>` acts. The reply goes to
      the target token and the admin is then told it was sent, whether or not the
      delivery went through. */
  function HandleAdminPrivateMessage(adminId: int, msg: Message, st: Store, o: Outcomes): (r: Effects)
    requires HasText(msg)
    ensures r.store == st
    ensures !StartsWith(msg.text.value, ReplyPrefix) ==> r.actions == []
    ensures StartsWith(msg.text.value, ReplyPrefix) ==>
      var cmd := ParseReply(msg.text.value);
      && |r.actions| == 2
      && r.actions[0].Send? && r.actions[0].to == ChatText(cmd.target)
      && Contains(r.actions[0].text, cmd.body)
      && r.actions[1] == Say(ChatId(adminId), ReplySentText)
  {
    var text := msg.text.value;
    if StartsWith(text, ReplyPrefix) then
      var cmd := ParseReply(text);
      var sent := SendReplyToUser(cmd.target, cmd.body, o.deliveryOk);
      Effects(st, sent.actions + [Say(ChatId(adminId), ReplySentText)])
    else Effects(st, [])
  }

  // ---------------------------------------------------------------------------
  // Group messages

  const GroupIsClosedText: string := "Group is currently closed. Messages are not allowed."
  const ClosedGroupText: string := "Group has been closed. Only admins can send messages."
  const OpenedGroupText: string := "Group has been opened. Users can send messages."

  /** `bannedWords.some(word => messageText.includes(word.word))`. */
  predicate HasBannedWord(text: string, words: seq<string>)
  {
    exists k :: 0 <= k < |words| && Contains(text, words[k])
  }

  /** The admin in the group: exact `/closegroup` and `/opengroup` set the closed
      flag, then the list commands run on every admin message. Only messages are
      sent: the admin is never moderated. */
  function HandleAdminGroupCommands(msg: Message, st: Store): (r: Effects)
    requires HasText(msg)
    ensures forall a :: a in r.actions ==> a.Send?
    ensures msg.text.value == "/closegroup" ==> IsClosed(r.store.settings)
    ensures msg.text.value == "/opengroup" ==> !IsClosed(r.store.settings)
    ensures msg.text.value != "/closegroup" && msg.text.value != "/opengroup" ==>
      r == HandleGroupCommands(msg, st)
    ensures msg.text.value == "/closegroup" || msg.text.value == "/opengroup" ==>
      r.store.(settings := st.settings) == st && |r.actions| == 1
    ensures msg.text.value == "/closegroup" || msg.text.value == "/opengroup" ==>
      var before := if st.settings.Some? then st.settings.value else Settings(false, None, None);
      && r.store.settings.Some?
      && r.store.settings.value.maxWarnings == before.maxWarnings
      && r.store.settings.value.muteDuration == before.muteDuration
  {
    var text := msg.text.value;
    var chat := ChatId(msg.chat.id);
    if text == "/closegroup" || text == "/opengroup" then
      var closing := text == "/closegroup";
      var flagged := UpdateGroupSettings(st, SettingsPatch(Some(closing), None, None));
      var notice := Say(chat, if closing then ClosedGroupText else OpenedGroupText);
      var rest := HandleGroupCommands(msg, flagged);
      assert !StartsWith(text, AddBanPrefix) && !StartsWith(text, RemoveBanPrefix) && !StartsWith(text, AddResponsePrefix);
      Effects(rest.store, [notice] + rest.actions)
    else HandleGroupCommands(msg, st)
  }

  /** A message in the configured group from a non-admin sender or the admin.
      The gates run in order: the admin's commands (no moderation); a closed
      group (delete and notice, nothing else); a stored banned word in the
      lower-cased text (only the banned-word handler); otherwise the
      auto-response, then the link check whether or not a response was sent. */
  function HandleGroupMessage(cfg: BotConfig, msg: Message, st: Store, now: int, o: Outcomes): (r: Effects)
    requires HasText(msg)
    ensures IsAdmin(cfg, msg.from.id) ==> r == HandleAdminGroupCommands(msg, st)
    ensures !IsAdmin(cfg, msg.from.id) && IsClosed(st.settings) ==>
      r == Effects(st, [Delete(msg.chat.id, msg.messageId), Say(ChatId(msg.chat.id), GroupIsClosedText)])
    ensures !IsAdmin(cfg, msg.from.id) && !IsClosed(st.settings) && HasBannedWord(Lower(msg.text.value), st.bannedWords) ==>
      r == HandleBannedWord(msg, st, now, o)
    ensures !IsAdmin(cfg, msg.from.id) && !IsClosed(st.settings) && !HasBannedWord(Lower(msg.text.value), st.bannedWords) ==>
      && r.actions == CheckAndRespond(msg, Some(st.autoResponses))
                      + (if ContainsLink(Lower(msg.text.value)) then HandleLink(msg, st).actions else [])
      && r.store == (if ContainsLink(Lower(msg.text.value)) then HandleLink(msg, st).store else st)
    ensures forall a :: a in r.actions && IsRestrict(a) ==>
      !IsAdmin(cfg, msg.from.id) && !IsClosed(st.settings) && HasBannedWord(Lower(msg.text.value), st.bannedWords)
  {
    var text := Lower(msg.text.value);
    if IsAdmin(cfg, msg.from.id) then HandleAdminGroupCommands(msg, st)
    else if IsClosed(st.settings) then
      Effects(st, [Delete(msg.chat.id, msg.messageId), Say(ChatId(msg.chat.id), GroupIsClosedText)])
    else if HasBannedWord(text, st.bannedWords) then HandleBannedWord(msg, st, now, o)
    else
      var replied := CheckAndRespond(msg, Some(st.autoResponses));
      if HasLink(text) then
        var linked := HandleLink(msg, st);
        Effects(linked.store, replied + linked.actions)
      else Effects(st, replied)
  }

  // ---------------------------------------------------------------------------
  // Entry points

  /** `handleMessage`: nothing without text; in private the admin's handler or
      the complaint handler, for every text (commands included); elsewhere only
      the configured group, compared as text. */
  function HandleMessage(cfg: BotConfig, msg: Message, st: Store, now: int, o: Outcomes): (r: Effects)
    ensures !HasText(msg) ==> r == Effects(st, [])
    ensures HasText(msg) && msg.chat.kind == Private && IsAdmin(cfg, msg.from.id) ==>
      r == HandleAdminPrivateMessage(msg.from.id, msg, st, o)
    ensures HasText(msg) && msg.chat.kind == Private && !IsAdmin(cfg, msg.from.id) ==>
      r == HandleComplaint(cfg.adminEnv, msg, st, o.storeOk)
    ensures HasText(msg) && msg.chat.kind != Private ==>
      r == if cfg.groupId == Some(IntToString(msg.chat.id)) then HandleGroupMessage(cfg, msg, st, now, o)
           else Effects(st, [])
  {
    if !HasText(msg) then Effects(st, [])
    else if msg.chat.kind == Private then
      if IsAdmin(cfg, msg.from.id) then HandleAdminPrivateMessage(msg.from.id, msg, st, o)
      else HandleComplaint(cfg.adminEnv, msg, st, o.storeOk)
    else if cfg.groupId == Some(IntToString(msg.chat.id)) then HandleGroupMessage(cfg, msg, st, now, o)
    else Effects(st, [])
  }

  /** Any private text from a customer, `/start` and other commands included, is
      filed as a pending complaint carrying that text when the store accepts it. */
  lemma PrivateTextIsFiled(cfg: BotConfig, msg: Message, st: Store, now: int, o: Outcomes)
    requires HasText(msg) && msg.chat.kind == Private && !IsAdmin(cfg, msg.from.id) && o.storeOk
    ensures var r := HandleMessage(cfg, msg, st, now, o);
      && |r.store.complaints| == |st.complaints| + 1
      && r.store.complaints[|st.complaints|].message == msg.text.value
      && r.store.complaints[|st.complaints|].status == Pending
  {
  }

  /** A message from any chat other than a private one or the configured group
      changes nothing and sends nothing, whatever the sender. */
  lemma OtherChatsIgnored(cfg: BotConfig, msg: Message, st: Store, now: int, o: Outcomes)
    requires msg.chat.kind != Private && cfg.groupId != Some(IntToString(msg.chat.id))
    ensures HandleMessage(cfg, msg, st, now, o) == Effects(st, [])
  {
  }

  /** `handleCallbackQuery`: the admin's callbacks reach the admin handler, every
      other sender's the customer handler; each is answered exactly once and only
      the admin's can change the store. */
  function HandleCallbackQuery(cfg: BotConfig, q: CallbackQuery, st: Store): (r: Effects)
    ensures CountAnswers(r.actions) == 1
    ensures IsAdmin(cfg, q.from.id) ==> r == HandleAdminCallback(q, st)
    ensures !IsAdmin(cfg, q.from.id) ==> r == Effects(st, HandleUserCallback(q))
  {
    if IsAdmin(cfg, q.from.id) then HandleAdminCallback(q, st)
    else Effects(st, HandleUserCallback(q))
  }

  /** The `/start` listener: the sender is recorded, and the welcome with the
      main menu is sent in a private chat only. */
  function HandleStartCommand(msg: Message, st: Store): (r: Effects)
    ensures msg.from.id in r.store.users
    ensures r.store.users[msg.from.id] == UserRow(msg.from.id, msg.from.username, msg.from.firstName, msg.from.lastName)
    ensures r.store.(users := st.users) == st
    ensures msg.chat.kind == Private ==> r.actions == HandleStart(msg.chat.id)
    ensures msg.chat.kind != Private ==> r.actions == []
  {
    var stored := AddUser(st, UserRow(msg.from.id, msg.from.username, msg.from.firstName, msg.from.lastName));
    Effects(stored, if msg.chat.kind == Private then HandleStart(msg.chat.id) else [])
  }
}

=== FILE: commands.dfy ===
/** Parsing of the admin's text commands: `/reply <id> <text…>`, the one-word
    arguments of `/addban` and `/removeban`, and `/addresponse <trigger> | <response>`. */
module Commands {
  import opened Common
  import opened Text

  const ReplyName: string := "/reply"
  const ReplyPrefix: string := ReplyName + " "
  const AddBanPrefix: string := "/addban "
  const RemoveBanPrefix: string := "/removeban "
  const AddResponsePrefix: string := "/addresponse "

  datatype ReplyCommand = ReplyCommand(target: string, body: string)

  /** `parts = text.split(' ')`, target `parts[1]`, body `parts.slice(2).join(' ')`.
      The target is the first space-free token after the command; the body is
      everything after the following space, verbatim. */
  function ParseReply(text: string): (r: ReplyCommand)
    requires StartsWith(text, ReplyPrefix)
    ensures ' ' !in r.target
    ensures (text == ReplyPrefix + r.target && r.body == "") || text == ReplyPrefix + r.target + " " + r.body
  {
    ReplySplit(text);
    var parts := Split(text, ' ');
    ReplyCommand(parts[1], Join(parts[2..], ' '))
  }

  /** The split of a `/reply ` text is the command followed by the split of the
      rest, and the rest is the first token, alone or followed by a space and the
      join of the remaining tokens. */
  lemma ReplySplit(text: string)
    requires StartsWith(text, ReplyPrefix)
    ensures |Split(text, ' ')| >= 2
    ensures var parts := Split(text, ' ');
      || (|parts| == 2 && text == ReplyPrefix + parts[1])
      || (|parts| > 2 && text == ReplyPrefix + parts[1] + " " + Join(parts[2..], ' '))
  {
    var rest := text[7..];
    assert text == ReplyName + [' '] + rest by {
      assert text[..7] == ReplyPrefix;
    }
    assert ' ' !in ReplyName;
    SplitCons(ReplyName, ' ', rest);
    var tail := Split(rest, ' ');
    var parts := Split(text, ' ');
    assert parts == [ReplyName] + tail;
    assert parts[1] == tail[0] && parts[2..] == tail[1..];
    ReplyShape(rest);
  }

  /** The rest of a `/reply ` text is its first token, or that token, a space and
      the join of the remaining tokens. */
  lemma ReplyShape(rest: string)
    ensures var tail := Split(rest, ' ');
      || (|tail| == 1 && rest == tail[0])
      || (|tail| > 1 && rest == tail[0] + " " + Join(tail[1..], ' '))
  {
    JoinSplit(rest, ' ');
  }

  /** A space-free target followed by a space and any body parses back to both. */
  lemma ReplyRoundTrip(target: string, body: string)
    requires ' ' !in target
    ensures StartsWith(ReplyPrefix + target + " " + body, ReplyPrefix)
    ensures ParseReply(ReplyPrefix + target + " " + body) == ReplyCommand(target, body)
  {
    var text := ReplyPrefix + target + " " + body;
    assert text[..7] == ReplyPrefix;
    assert text == ReplyName + [' '] + (target + [' '] + body);
    assert ' ' !in ReplyName;
    SplitCons(ReplyName, ' ', target + [' '] + body);
    SplitCons(target, ' ', body);
    var parts := Split(text, ' ');
    assert parts == [ReplyName, target] + Split(body, ' ');
    assert parts[2..] == Split(body, ' ');
    JoinSplit(body, ' ');
  }

  /** `text.split(' ')[1]`: the second space-separated token. */
  function SecondToken(text: string): (w: string)
    requires ' ' in text
    ensures ' ' !in w
  {
    SplitCount(text, ' ');
    Split(text, ' ')[1]
  }

  /** The word argument of a one-word command is the token right after it. */
  lemma SecondTokenOf(command: string, word: string, more: string)
    requires ' ' !in command && ' ' !in word
    ensures ' ' in command + " " + word
    ensures SecondToken(command + " " + word) == word
    ensures SecondToken(command + " " + word + " " + more) == word
  {
    assert (command + " " + word)[|command|] == ' ';
    assert command + " " + word == command + [' '] + word;
    SplitCons(command, ' ', word);
    SplitOfPlain(word, ' ');
    var longer := command + " " + word + " " + more;
    assert longer == command + [' '] + (word + [' '] + more);
    SplitCons(command, ' ', word + [' '] + more);
    SplitCons(word, ' ', more);
  }

  /** `text.substring(13).split(' | ')` taken only when it has exactly two parts:
      the text after the command is then the trigger, `" | "`, and the response. */
  function ParseAddResponse(text: string): (r: Option<(string, string)>)
    requires StartsWith(text, AddResponsePrefix)
    ensures r.Some? <==> |SplitOn(text[|AddResponsePrefix|..], BarSeparator)| == 2
    ensures r.Some? ==> text == AddResponsePrefix + r.value.0 + BarSeparator + r.value.1
  {
    var parts := SplitOn(text[13..], BarSeparator);
    if |parts| == 2 then
      JoinSplitOn(text[13..], BarSeparator);
      assert text == text[..13] + text[13..];
      Some((parts[0], parts[1]))
    else None
  }

  /** A `|`-free trigger and response are recovered exactly. */
  lemma AddResponseRoundTrip(trigger: string, response: string)
    requires '|' !in trigger && '|' !in response
    ensures StartsWith(AddResponsePrefix + trigger + BarSeparator + response, AddResponsePrefix)
    ensures ParseAddResponse(AddResponsePrefix + trigger + BarSeparator + response) == Some((trigger, response))
  {
    var text := AddResponsePrefix + trigger + BarSeparator + response;
    assert text[13..] == trigger + BarSeparator + response;
    SplitOnBarPair(trigger, response);
  }

  /** Three `|`-free pieces joined by `" | "` split into three parts, so the
      command is ignored. */
  lemma AddResponseThreePartsRejected(a: string, b: string, c: string)
    requires '|' !in a && '|' !in b && '|' !in c
    ensures StartsWith(AddResponsePrefix + a + BarSeparator + b + BarSeparator + c, AddResponsePrefix)
    ensures ParseAddResponse(AddResponsePrefix + a + BarSeparator + b + BarSeparator + c) == None
  {
    var text := AddResponsePrefix + a + BarSeparator + b + BarSeparator + c;
    assert text[13..] == a + BarSeparator + (b + BarSeparator + c);
    SplitOnBarCons(a, b + BarSeparator + c);
    SplitOnBarPair(b, c);
  }

  /** The three group-command prefixes exclude each other, and each one's text
      holds a space, so its second token exists. */
  lemma GroupCommandPrefixes(text: string)
    ensures StartsWith(text, AddBanPrefix) ==>
      ' ' in text && !StartsWith(text, RemoveBanPrefix) && !StartsWith(text, AddResponsePrefix)
    ensures StartsWith(text, RemoveBanPrefix) ==> ' ' in text && !StartsWith(text, AddResponsePrefix)
  {
    if StartsWith(text, AddBanPrefix) {
      assert text[..8][7] == text[7] == ' ';
      assert text[..8][1] == text[1] == 'a';
      assert text[..8][4] == text[4] == 'b';
      assert !StartsWith(text, RemoveBanPrefix) by {
        if |RemoveBanPrefix| <= |text| { assert text[..11][1] == text[1]; }
      }
      assert !StartsWith(text, AddResponsePrefix) by {
        if |AddResponsePrefix| <= |text| { assert text[..13][4] == text[4]; }
      }
    }
    if StartsWith(text, RemoveBanPrefix) {
      assert text[..11][10] == text[10] == ' ';
      assert text[..11][1] == text[1] == 'r';
      assert !StartsWith(text, AddResponsePrefix) by {
        if |AddResponsePrefix| <= |text| { assert text[..13][1] == text[1]; }
      }
    }
  }
}

=== FILE: common.dfy ===
/** Values shared by every module: optional fields and the JavaScript notion of
    "truthy" that the bot uses for its `x || default` fallbacks. */
module Common {

  /** A field or reply that may be missing (`null`/`undefined` in the source). */
  datatype Option<+T> = None | Some(value: T)

  /** A string field is truthy when it is present and not empty. */
  predicate Truthy(o: Option<string>)
  {
    o.Some? && o.value != ""
  }

  /** `o || fallback` for a string field. */
  function StrOr(o: Option<string>, fallback: string): (r: string)
    ensures Truthy(o) ==> r == o.value
    ensures !Truthy(o) ==> r == fallback
    ensures r != "" <==> Truthy(o) || fallback != ""
    ensures Truthy(Some(r)) ==> Truthy(o) || r == fallback
  {
    if Truthy(o) then o.value else fallback
  }

  /** `o || fallback` for a numeric field: `0` is falsy as well as a missing value. */
  function IntOr(o: Option<int>, fallback: int): (r: int)
    ensures o.Some? && o.value != 0 ==> r == o.value
    ensures o.None? || o.value == 0 ==> r == fallback
    ensures r != 0 <==> (o.Some? && o.value != 0) || fallback != 0
    ensures r == fallback || Some(r) == o
  {
    if o.Some? && o.value != 0 then o.value else fallback
  }
}

=== FILE: customer_support.dfy ===
/** The customer's side: the welcome with the main menu, filing a complaint
    (confirmation to the user, notice with the reply command and the complaint
    keyboard to the admin), delivering the admin's reply, and the main-menu
    callbacks. */
module CustomerSupport {
  import opened Common
  import opened Text
  import opened Keyboards
  import opened Database
  import opened Platform

  const WelcomeText: string := "Welcome to our Customer Support Bot!\n\nHow can we help you today?\n\nPlease choose an option below or write your complaint/question and we'll get back to you soon!"

  /** The welcome: one message carrying the main menu. */
  function HandleStart(chat: int): (actions: seq<Action>)
    ensures |actions| == 1 && actions[0].Send? && actions[0].to == ChatId(chat)
    ensures actions[0].keyboard.Some?
    ensures CallbackData(actions[0].keyboard.value) == ["new_complaint", "check_status", "contact_info", "faq", "main_menu"]
  {
    [Send(ChatId(chat), WelcomeText, None, Some(MainMenuKeyboard()))]
  }

  const ComplaintApology: string := "Sorry, there was an error submitting your complaint. Please try again."
  const ConfirmationHead: string := "Thank you for your message!\n\nYour complaint has been recorded with ID: "
  const ConfirmationTail: string := "\n\nOur admin will review and respond to you shortly.\n\nAverage response time: 2-24 hours"

  function ConfirmationText(id: int): string
  {
    ConfirmationHead + ("#" + IntToString(id)) + ConfirmationTail
  }

  const NoticeHead: string := "New Customer Complaint\n\nUser: @"
  const NoticeMessage: string := "\nMessage: "
  const NoticeId: string := "\nComplaint ID: "
  const NoticeReply: string := "\n\nTo reply: "
  const NoticeTail: string := " Your response here"

  /** The admin notice up to the complaint id: the username, the user id and the text. */
  function NoticeIntro(username: string, userId: int, message: string): string
  {
    NoticeHead + username + " (" + IntToString(userId) + ")" + NoticeMessage + message + NoticeId
  }

  function AdminNoticeText(username: string, userId: int, message: string, id: int): string
  {
    NoticeIntro(username, userId, message) + ("#" + IntToString(id)) + NoticeReply
      + ("/reply " + IntToString(userId)) + NoticeTail
  }

  /** Files a complaint. When the insert fails the user gets only the apology.
      Otherwise a `pending` row is stored under a fresh id, the user is told that
      id, and the admin (when the environment names one) gets a notice with the
      same id, the `/reply <user id>` command and the complaint keyboard built
      from the same two ids. */
  function HandleComplaint(adminEnv: Option<string>, msg: Message, st: Store, storeOk: bool): (r: Effects)
    requires HasText(msg)
    ensures !storeOk ==> r == Effects(st, [Say(ChatId(msg.chat.id), ComplaintApology)])
    ensures storeOk ==>
      && |r.store.complaints| == |st.complaints| + 1
      && r.store.complaints[..|st.complaints|] == st.complaints
      && r.store.(complaints := st.complaints) == st
    ensures storeOk ==>
      var c := r.store.complaints[|st.complaints|];
      && c.userId == msg.from.id && c.message == msg.text.value && c.status == Pending
      && c.username == StrOr(msg.from.username, NoUsername)
      && (forall k :: 0 <= k < |st.complaints| ==> st.complaints[k].id < c.id)
      && |r.actions| == (if adminEnv.Some? then 2 else 1)
      && r.actions[0].Send? && r.actions[0].to == ChatId(msg.chat.id)
      && Contains(r.actions[0].text, "#" + IntToString(c.id))
    ensures storeOk && adminEnv.Some? ==>
      var c := r.store.complaints[|st.complaints|];
      && r.actions[1].Send? && r.actions[1].to == ChatText(adminEnv.value)
      && Contains(r.actions[1].text, "#" + IntToString(c.id))
      && Contains(r.actions[1].text, "/reply " + IntToString(msg.from.id))
      && r.actions[1].keyboard == Some(ComplaintAdminKeyboard(c.id, msg.from.id))
  {
    var chat := ChatId(msg.chat.id);
    if !storeOk then Effects(st, [Say(chat, ComplaintApology)])
    else
      var username := StrOr(msg.from.username, NoUsername);
      var ins := AddComplaint(st, msg.from.id, msg.text.value, username);
      var idText := "#" + IntToString(ins.id);
      ContainsInfix(ConfirmationHead, idText, ConfirmationTail);
      var confirm := [Say(chat, ConfirmationText(ins.id))];
      if adminEnv.None? then Effects(ins.store, confirm)
      else
        var replyCmd := "/reply " + IntToString(msg.from.id);
        ContainsBoth(NoticeIntro(username, msg.from.id, msg.text.value), idText, NoticeReply, replyCmd, NoticeTail);
        var notice := Send(ChatText(adminEnv.value), AdminNoticeText(username, msg.from.id, msg.text.value, ins.id),
          None, Some(ComplaintAdminKeyboard(ins.id, msg.from.id)));
        Effects(ins.store, confirm + [notice])
  }

  const ReplyHead: string := "Response from Admin:\n\n"
  const ReplyTail: string := "\n\nIf you have more questions, feel free to ask!"

  /** Sends the admin's reply to the target taken from the command; reports
      whether the send went through and never fails itself. */
  function SendReplyToUser(target: string, reply: string, deliveryOk: bool): (r: Attempt)
    ensures r.ok <==> deliveryOk
    ensures |r.actions| == 1 && r.actions[0].Send? && r.actions[0].to == ChatText(target)
    ensures Contains(r.actions[0].text, reply)
  {
    ContainsInfix(ReplyHead, reply, ReplyTail);
    Attempt(deliveryOk, [Say(ChatText(target), ReplyHead + reply + ReplyTail)])
  }

  predicate IsUserCallbackKey(data: string)
  {
    data == "new_complaint" || data == "check_status" || data == "contact_info" || data == "faq"
  }

  const NewComplaintText: string := "Please write your complaint or question below:\n\nBe as detailed as possible so we can help you better!"
  const StatusText: string := "Your recent complaints:\n\nThis feature will show your complaint history and status."
  const ContactText: string := "Contact Information\n\nBot Support: Available 24/7\nAdmin: @admin_username\nEmail: support@example.com\nWebsite: https://example.com"
  const FaqText: string := "Frequently Asked Questions\n\nQ: How long does it take to get a response?\nA: Usually within 2-24 hours.\n\nQ: Can I track my complaint?\nA: Yes, use the \"Check Status\" button.\n\nQ: Is this service free?\nA: Yes, our support is completely free!"

  function UserCallbackText(data: string): string
  {
    if data == "new_complaint" then NewComplaintText
    else if data == "check_status" then StatusText
    else if data == "contact_info" then ContactText
    else FaqText
  }

  /** A callback pressed by a customer: one message for the four menu keys,
      nothing for any other data, and exactly one callback answer in every case. */
  function HandleUserCallback(q: CallbackQuery): (actions: seq<Action>)
    ensures CountAnswers(actions) == 1
    ensures |actions| >= 1 && actions[|actions| - 1] == AnswerCallback(q.id)
    ensures IsUserCallbackKey(q.data) ==> |actions| == 2 && actions[0].Send? && actions[0].to == ChatId(q.chat.id)
    ensures !IsUserCallbackKey(q.data) ==> actions == [AnswerCallback(q.id)]
  {
    if IsUserCallbackKey(q.data) then
      var shown := Say(ChatId(q.chat.id), UserCallbackText(q.data));
      assert CountAnswers([shown, AnswerCallback(q.id)]) == CountAnswers([AnswerCallback(q.id)]);
      [shown, AnswerCallback(q.id)]
    else [AnswerCallback(q.id)]
  }

  /** Of the main menu's five buttons, the first four show something and the
      last (`main_menu`) is only answered. */
  lemma MainMenuDispatch(q: CallbackQuery)
    requires q.data in CallbackData(MainMenuKeyboard())
    ensures q.data == "main_menu" <==> HandleUserCallback(q) == [AnswerCallback(q.id)]
  {
  }
}

=== FILE: database.dfy ===
/** The six tables the bot keeps in its hosted store (users, complaints, banned
    words, auto-responses, warnings and the group-settings row), as one immutable
    value, and the effect of each store call the handlers make. */
module Database {
  import opened Common
  import opened Text

  datatype UserRow = UserRow(userId: int, username: Option<string>, firstName: string, lastName: Option<string>)

  datatype Complaint = Complaint(id: int, userId: int, username: string, message: string, status: string)

  datatype AutoResponse = AutoResponse(trigger: string, response: string)

  datatype Warning = Warning(userId: int, reason: string)

  /** The group-settings row; a missing count or duration is `None`. */
  datatype Settings = Settings(isClosed: bool, maxWarnings: Option<int>, muteDuration: Option<int>)

  /** The fields an upsert provides; `None` means the field is not in the upsert. */
  datatype SettingsPatch = SettingsPatch(isClosed: Option<bool>, maxWarnings: Option<int>, muteDuration: Option<int>)

  datatype Store = Store(
    users: map<int, UserRow>,
    complaints: seq<Complaint>,
    bannedWords: seq<string>,
    autoResponses: seq<AutoResponse>,
    warnings: seq<Warning>,
    settings: Option<Settings>)

  const EmptyStore: Store := Store(map[], [], [], [], [], None)

  const Pending: string := "pending"
  const Closed: string := "closed"

  // ---------------------------------------------------------------------------
  // Users

  /** Upsert of a user row keyed by the platform user id. */
  function AddUser(s: Store, row: UserRow): (r: Store)
    ensures r.users.Keys == s.users.Keys + {row.userId}
    ensures r.users[row.userId] == row
    ensures forall u :: u in s.users && u != row.userId ==> r.users[u] == s.users[u]
    ensures r.(users := s.users) == s
  {
    s.(users := s.users[row.userId := row])
  }

  // ---------------------------------------------------------------------------
  // Complaints

  /** An upper bound of the complaint ids in use: the largest one, or 0 when
      there is none above 0. */
  function MaxId(cs: seq<Complaint>): (m: int)
    ensures forall k :: 0 <= k < |cs| ==> cs[k].id <= m
    ensures |cs| == 0 ==> m == 0
    ensures m >= 0
  {
    if |cs| == 0 then 0
    else
      var m := MaxId(cs[..|cs| - 1]);
      assert forall k :: 0 <= k < |cs| - 1 ==> cs[..|cs| - 1][k] == cs[k];
      if cs[|cs| - 1].id > m then cs[|cs| - 1].id else m
  }

  datatype Inserted = Inserted(store: Store, id: int)

  /** Inserts a `pending` complaint under a store-assigned id larger than every
      id in use. */
  function AddComplaint(s: Store, userId: int, message: string, username: string): (r: Inserted)
    ensures forall k :: 0 <= k < |s.complaints| ==> s.complaints[k].id < r.id
    ensures r.id >= 1
    ensures r.store.complaints == s.complaints + [Complaint(r.id, userId, username, message, Pending)]
    ensures r.store.(complaints := s.complaints) == s
  {
    var id := MaxId(s.complaints) + 1;
    Inserted(s.(complaints := s.complaints + [Complaint(id, userId, username, message, Pending)]), id)
  }

  /** Sets the status of the complaints whose id renders as `key`; nothing else changes. */
  function UpdateComplaintStatus(s: Store, key: string, status: string): (r: Store)
    ensures |r.complaints| == |s.complaints|
    ensures forall k :: 0 <= k < |s.complaints| ==>
      r.complaints[k].(status := s.complaints[k].status) == s.complaints[k]
    ensures forall k :: 0 <= k < |s.complaints| && IntToString(s.complaints[k].id) == key ==>
      r.complaints[k].status == status
    ensures forall k :: 0 <= k < |s.complaints| && IntToString(s.complaints[k].id) != key ==>
      r.complaints[k] == s.complaints[k]
    ensures r.(complaints := s.complaints) == s
  {
    var cs := s.complaints;
    s.(complaints := seq(|cs|, k requires 0 <= k < |cs| =>
      if IntToString(cs[k].id) == key then cs[k].(status := status) else cs[k]))
  }

  lemma UpdateComplaintStatusIdempotent(s: Store, key: string, status: string)
    ensures UpdateComplaintStatus(UpdateComplaintStatus(s, key, status), key, status)
         == UpdateComplaintStatus(s, key, status)
  {
  }

  // ---------------------------------------------------------------------------
  // Banned words

  /** The list without any entry equal to `w`, order kept. */
  function RemoveAll(ws: seq<string>, w: string): (r: seq<string>)
    ensures forall x :: x in r <==> x in ws && x != w
    ensures |r| <= |ws|
  {
    if |ws| == 0 then []
    else
      var rest := RemoveAll(ws[1..], w);
      assert forall x :: x in ws <==> x == ws[0] || x in ws[1..];
      if ws[0] == w then rest else [ws[0]] + rest
  }

  predicate AllLowerCase(ws: seq<string>)
  {
    forall k :: 0 <= k < |ws| ==> IsLowerCase(ws[k])
  }

  /** Inserts the lower-cased word. */
  function AddBannedWord(s: Store, w: string): (r: Store)
    ensures Lower(w) in r.bannedWords
    ensures forall x :: x in r.bannedWords <==> x in s.bannedWords || x == Lower(w)
    ensures AllLowerCase(s.bannedWords) ==> AllLowerCase(r.bannedWords)
    ensures r.(bannedWords := s.bannedWords) == s
  {
    s.(bannedWords := s.bannedWords + [Lower(w)])
  }

  /** Deletes every entry equal to the lower-cased word. */
  function RemoveBannedWord(s: Store, w: string): (r: Store)
    ensures forall x :: x in r.bannedWords <==> x in s.bannedWords && x != Lower(w)
    ensures r.(bannedWords := s.bannedWords) == s
  {
    s.(bannedWords := RemoveAll(s.bannedWords, Lower(w)))
  }

  /** Adding a word and removing it in any letter case leaves no entry for it and
      keeps every other word. */
  lemma AddThenRemoveBannedWord(s: Store, w: string, w': string)
    requires Lower(w') == Lower(w)
    ensures Lower(w) !in RemoveBannedWord(AddBannedWord(s, w), w').bannedWords
    ensures forall x :: x in s.bannedWords && x != Lower(w) ==>
      x in RemoveBannedWord(AddBannedWord(s, w), w').bannedWords
  {
  }

  // ---------------------------------------------------------------------------
  // Auto-responses

  /** The list without any row whose trigger is `t`, order kept. */
  function RemoveTrigger(rs: seq<AutoResponse>, t: string): (r: seq<AutoResponse>)
    ensures forall x :: x in r <==> x in rs && x.trigger != t
    ensures |r| <= |rs|
  {
    if |rs| == 0 then []
    else
      var rest := RemoveTrigger(rs[1..], t);
      assert forall x :: x in rs <==> x == rs[0] || x in rs[1..];
      if rs[0].trigger == t then rest else [rs[0]] + rest
  }

  /** Inserts a row with the lower-cased trigger and the response as given. */
  function AddAutoResponse(s: Store, trigger: string, response: string): (r: Store)
    ensures |r.autoResponses| == |s.autoResponses| + 1
    ensures r.autoResponses[..|s.autoResponses|] == s.autoResponses
    ensures r.autoResponses[|s.autoResponses|].trigger == Lower(trigger)
    ensures r.autoResponses[|s.autoResponses|].response == response
    ensures r.(autoResponses := s.autoResponses) == s
  {
    s.(autoResponses := s.autoResponses + [AutoResponse(Lower(trigger), response)])
  }

  /** Deletes every row whose trigger equals the lower-cased trigger. */
  function RemoveAutoResponse(s: Store, trigger: string): (r: Store)
    ensures forall x :: x in r.autoResponses <==> x in s.autoResponses && x.trigger != Lower(trigger)
    ensures r.(autoResponses := s.autoResponses) == s
  {
    s.(autoResponses := RemoveTrigger(s.autoResponses, Lower(trigger)))
  }

  /** Removing from a table with one more row at the end removes from the old
      rows and keeps the new one unless it matches too. */
  lemma {:induction false} RemoveTriggerAppend(rs: seq<AutoResponse>, x: AutoResponse, t: string)
    ensures RemoveTrigger(rs + [x], t) == RemoveTrigger(rs, t) + (if x.trigger == t then [] else [x])
    decreases |rs|
  {
    if |rs| == 0 {
      assert rs + [x] == [x];
      assert [x][1..] == [];
    } else {
      assert (rs + [x])[1..] == rs[1..] + [x];
      RemoveTriggerAppend(rs[1..], x, t);
    }
  }

  /** Deleting a trigger right after adding it (in any letter case) leaves the
      table as deleting it alone would: the added row goes too, and nothing
      else is touched. */
  lemma AddThenRemoveAutoResponse(s: Store, trigger: string, response: string, trigger': string)
    requires Lower(trigger') == Lower(trigger)
    ensures RemoveAutoResponse(AddAutoResponse(s, trigger, response), trigger') == RemoveAutoResponse(s, trigger')
  {
    RemoveTriggerAppend(s.autoResponses, AutoResponse(Lower(trigger), response), Lower(trigger'));
  }

  // ---------------------------------------------------------------------------
  // Warnings: an append-only log with a per-user clear

  /** The entries of one user, in log order. */
  function UserWarnings(ws: seq<Warning>, u: int): (r: seq<Warning>)
    ensures forall w :: w in r <==> w in ws && w.userId == u
    ensures |r| <= |ws|
  {
    if |ws| == 0 then []
    else
      var rest := UserWarnings(ws[1..], u);
      assert forall x :: x in ws <==> x == ws[0] || x in ws[1..];
      if ws[0].userId == u then [ws[0]] + rest else rest
  }

  /** The log without the entries of one user, in log order. */
  function WithoutUser(ws: seq<Warning>, u: int): (r: seq<Warning>)
    ensures forall w :: w in r <==> w in ws && w.userId != u
    ensures |r| <= |ws|
  {
    if |ws| == 0 then []
    else
      var rest := WithoutUser(ws[1..], u);
      assert forall x :: x in ws <==> x == ws[0] || x in ws[1..];
      if ws[0].userId == u then rest else [ws[0]] + rest
  }

  lemma {:induction false} UserWarningsAppend(ws: seq<Warning>, w: Warning, v: int)
    ensures UserWarnings(ws + [w], v) == UserWarnings(ws, v) + (if w.userId == v then [w] else [])
    decreases |ws|
  {
    if |ws| > 0 {
      assert (ws + [w])[1..] == ws[1..] + [w];
      UserWarningsAppend(ws[1..], w, v);
    }
  }

  lemma {:induction false} UserWarningsWithout(ws: seq<Warning>, u: int, v: int)
    ensures UserWarnings(WithoutUser(ws, u), v) == if v == u then [] else UserWarnings(ws, v)
    decreases |ws|
  {
    if |ws| > 0 {
      UserWarningsWithout(ws[1..], u, v);
      if ws[0].userId != u {
        assert ([ws[0]] + WithoutUser(ws[1..], u))[1..] == WithoutUser(ws[1..], u);
      }
    }
  }

  /** Appends one entry: that user's log grows by exactly that entry, every other
      user's log is unchanged. */
  function AddWarning(s: Store, u: int, reason: string): (r: Store)
    ensures UserWarnings(r.warnings, u) == UserWarnings(s.warnings, u) + [Warning(u, reason)]
    ensures forall v :: v != u ==> UserWarnings(r.warnings, v) == UserWarnings(s.warnings, v)
    ensures r.(warnings := s.warnings) == s
  {
    var ws := s.warnings + [Warning(u, reason)];
    assert forall v :: UserWarnings(ws, v) == UserWarnings(s.warnings, v) + (if v == u then [Warning(u, reason)] else []) by {
      forall v {
        UserWarningsAppend(s.warnings, Warning(u, reason), v);
      }
    }
    s.(warnings := ws)
  }

  /** Deletes one user's entries: that user's log is empty, every other user's log
      is unchanged. */
  function ClearUserWarnings(s: Store, u: int): (r: Store)
    ensures UserWarnings(r.warnings, u) == []
    ensures forall v :: v != u ==> UserWarnings(r.warnings, v) == UserWarnings(s.warnings, v)
    ensures r.(warnings := s.warnings) == s
  {
    var ws := WithoutUser(s.warnings, u);
    assert forall v :: UserWarnings(ws, v) == if v == u then [] else UserWarnings(s.warnings, v) by {
      forall v {
        UserWarningsWithout(s.warnings, u, v);
      }
    }
    s.(warnings := ws)
  }

  // ---------------------------------------------------------------------------
  // Group settings

  /** Upsert of the settings row: the fields provided overwrite, the rest are kept
      (a field absent from both reads as closed = false and missing numbers). */
  function UpdateGroupSettings(s: Store, p: SettingsPatch): (r: Store)
    ensures r.settings.Some?
    ensures p.isClosed.Some? ==> r.settings.value.isClosed == p.isClosed.value
    ensures p.maxWarnings.Some? ==> r.settings.value.maxWarnings == p.maxWarnings
    ensures p.muteDuration.Some? ==> r.settings.value.muteDuration == p.muteDuration
    ensures p.isClosed.None? ==> r.settings.value.isClosed == IsClosed(s.settings)
    ensures p.maxWarnings.None? && s.settings.Some? ==> r.settings.value.maxWarnings == s.settings.value.maxWarnings
    ensures p.muteDuration.None? && s.settings.Some? ==> r.settings.value.muteDuration == s.settings.value.muteDuration
    ensures r.(settings := s.settings) == s
  {
    var cur := if s.settings.Some? then s.settings.value else Settings(false, None, None);
    var next := Settings(
      if p.isClosed.Some? then p.isClosed.value else cur.isClosed,
      if p.maxWarnings.Some? then p.maxWarnings else cur.maxWarnings,
      if p.muteDuration.Some? then p.muteDuration else cur.muteDuration);
    s.(settings := Some(next))
  }

  lemma UpdateGroupSettingsIdempotent(s: Store, p: SettingsPatch)
    ensures UpdateGroupSettings(UpdateGroupSettings(s, p), p) == UpdateGroupSettings(s, p)
  {
  }

  /** `settings && settings.is_closed`. */
  predicate IsClosed(settings: Option<Settings>)
  {
    settings.Some? && settings.value.isClosed
  }

  /** `settings?.max_warnings || 3`. */
  function MaxWarnings(settings: Option<Settings>): (m: int)
    ensures m != 0
    ensures settings.None? || settings.value.maxWarnings.None? || settings.value.maxWarnings == Some(0) ==> m == 3
    ensures settings.Some? && settings.value.maxWarnings.Some? && settings.value.maxWarnings.value != 0
      ==> m == settings.value.maxWarnings.value
  {
    if settings.None? then 3 else IntOr(settings.value.maxWarnings, 3)
  }

  /** `settings?.mute_duration || 60`, in minutes. */
  function MuteMinutes(settings: Option<Settings>): (m: int)
    ensures m != 0
    ensures settings.None? || settings.value.muteDuration.None? || settings.value.muteDuration == Some(0) ==> m == 60
    ensures settings.Some? && settings.value.muteDuration.Some? && settings.value.muteDuration.value != 0
      ==> m == settings.value.muteDuration.value
  {
    if settings.None? then 60 else IntOr(settings.value.muteDuration, 60)
  }
}

=== FILE: group_management.dfy ===
/** Moderation of the configured group: the banned-word handler (delete, warn,
    and mute once the sender's warning log reaches the limit), the link handler
    (delete and warn, never mute), and kick/ban with their success flags. */
module GroupManagement {
  import opened Common
  import opened Text
  import opened Database
  import opened Platform

  const BannedWordReason: string := "Used banned word"
  const LinkReason: string := "Posted unauthorized link"

  /** `Math.floor((now + minutes * 60 * 1000) / 1000)`: the end of the mute in
      epoch seconds, for a clock `now` in milliseconds. */
  function MuteUntil(now: int, minutes: int): (until: int)
    ensures until == now / 1000 + 60 * minutes
    ensures until * 1000 <= now + minutes * 60000 < until * 1000 + 1000
  {
    var t := now + minutes * 60 * 1000;
    assert t == (now / 1000 + 60 * minutes) * 1000 + now % 1000;
    t / 1000
  }

  const WarningHead: string := ", please avoid using banned words. Warning "
  const MuteHead: string := " has been muted for "
  const MuteTail: string := " minutes due to repeated violations."
  const LinkTail: string := ", unauthorized links are not allowed. Message deleted."

  function WarningNotice(u: User, count: int, max: int): string
  {
    "@" + Handle(u) + WarningHead + IntToString(count) + "/" + IntToString(max)
  }

  function MuteNotice(u: User, minutes: int): string
  {
    "@" + Handle(u) + MuteHead + IntToString(minutes) + MuteTail
  }

  function LinkNotice(u: User): string
  {
    "@" + Handle(u) + LinkTail
  }

  /** The banned-word handler. The message is deleted and one warning appended
      first; `count` is the sender's log length after that. Below the limit the
      only further call is the "Warning count/max" notice. At the limit or above
      the sender is restricted until `now/1000 + 60 * minutes`, then told, and the
      log is cleared only when both calls succeeded. Other users' logs and the
      rest of the store never change. */
  function HandleBannedWord(msg: Message, st: Store, now: int, o: Outcomes): (r: Effects)
    ensures |r.actions| >= 2 && r.actions[0] == Delete(msg.chat.id, msg.messageId)
    ensures var count := |UserWarnings(st.warnings, msg.from.id)| + 1;
      var max := MaxWarnings(st.settings);
      count < max ==>
        && r.actions == [Delete(msg.chat.id, msg.messageId), Say(ChatId(msg.chat.id), WarningNotice(msg.from, count, max))]
        && UserWarnings(r.store.warnings, msg.from.id)
           == UserWarnings(st.warnings, msg.from.id) + [Warning(msg.from.id, BannedWordReason)]
    ensures var count := |UserWarnings(st.warnings, msg.from.id)| + 1;
      count >= MaxWarnings(st.settings) ==>
        r.actions[1] == Restrict(msg.chat.id, msg.from.id, MuteUntil(now, MuteMinutes(st.settings)))
        && |r.actions| == (if o.restrictOk then 3 else 2)
        && (o.restrictOk ==> r.actions[2] == Say(ChatId(msg.chat.id), MuteNotice(msg.from, MuteMinutes(st.settings))))
    ensures var count := |UserWarnings(st.warnings, msg.from.id)| + 1;
      count >= MaxWarnings(st.settings) && o.restrictOk && o.noticeOk ==>
        UserWarnings(r.store.warnings, msg.from.id) == []
    ensures var count := |UserWarnings(st.warnings, msg.from.id)| + 1;
      !(count >= MaxWarnings(st.settings) && o.restrictOk && o.noticeOk) ==>
        |UserWarnings(r.store.warnings, msg.from.id)| == count
    ensures forall v :: v != msg.from.id ==> UserWarnings(r.store.warnings, v) == UserWarnings(st.warnings, v)
    ensures r.store.(warnings := st.warnings) == st
  {
    var uid := msg.from.id;
    var chat := msg.chat.id;
    var count := |UserWarnings(st.warnings, uid)| + 1;
    var max := MaxWarnings(st.settings);
    var minutes := MuteMinutes(st.settings);
    var mute := count >= max;
    var store := RecordWarning(st, uid, mute && o.restrictOk && o.noticeOk);
    var restrict := Restrict(chat, uid, MuteUntil(now, minutes));
    if !mute then
      Effects(store, [Delete(chat, msg.messageId), Say(ChatId(chat), WarningNotice(msg.from, count, max))])
    else if !o.restrictOk then
      Effects(store, [Delete(chat, msg.messageId), restrict])
    else
      Effects(store, [Delete(chat, msg.messageId), restrict, Say(ChatId(chat), MuteNotice(msg.from, minutes))])
  }

  /** The store side of the banned-word handler: one `Used banned word` entry is
      appended to the user's log, and the log is then emptied when `thenClear`;
      no other user's log and no other table changes. */
  function RecordWarning(st: Store, uid: int, thenClear: bool): (s: Store)
    ensures thenClear ==> UserWarnings(s.warnings, uid) == []
    ensures !thenClear ==>
      UserWarnings(s.warnings, uid) == UserWarnings(st.warnings, uid) + [Warning(uid, BannedWordReason)]
    ensures forall v :: v != uid ==> UserWarnings(s.warnings, v) == UserWarnings(st.warnings, v)
    ensures s.(warnings := st.warnings) == st
  {
    var warned := AddWarning(st, uid, BannedWordReason);
    if thenClear then ClearUserWarnings(warned, uid) else warned
  }

  /** The link handler: delete, append one warning to the same per-user log the
      banned-word handler counts, post a notice; never a restriction. */
  function HandleLink(msg: Message, st: Store): (r: Effects)
    ensures r.actions == [Delete(msg.chat.id, msg.messageId), Say(ChatId(msg.chat.id), LinkNotice(msg.from))]
    ensures forall a :: a in r.actions ==> !IsRestrict(a)
    ensures UserWarnings(r.store.warnings, msg.from.id)
         == UserWarnings(st.warnings, msg.from.id) + [Warning(msg.from.id, LinkReason)]
    ensures forall v :: v != msg.from.id ==> UserWarnings(r.store.warnings, v) == UserWarnings(st.warnings, v)
    ensures r.store.(warnings := st.warnings) == st
  {
    Effects(AddWarning(st, msg.from.id, LinkReason),
      [Delete(msg.chat.id, msg.messageId), Say(ChatId(msg.chat.id), LinkNotice(msg.from))])
  }

  /** Kick then unban at once (so the user may rejoin); true iff both succeed. The
      unban is only attempted after a successful kick. */
  function KickUser(chat: int, userId: int, kickOk: bool, unbanOk: bool): (r: Attempt)
    ensures r.ok <==> kickOk && unbanOk
    ensures |r.actions| >= 1 && r.actions[0] == Kick(chat, userId)
    ensures Unban(chat, userId) in r.actions <==> kickOk
    ensures |r.actions| <= 2
  {
    if !kickOk then Attempt(false, [Kick(chat, userId)])
    else Attempt(unbanOk, [Kick(chat, userId), Unban(chat, userId)])
  }

  /** Ban is a kick without the unban; true iff the kick succeeds. */
  function BanUser(chat: int, userId: int, kickOk: bool): (r: Attempt)
    ensures r.ok <==> kickOk
    ensures r.actions == [Kick(chat, userId)]
  {
    Attempt(kickOk, [Kick(chat, userId)])
  }
}

=== FILE: helpers.dfy ===
/** Small pure helpers: user mentions, Markdown escaping, the first number in a
    text, and the per-user sliding-window rate limiter with its sweep. The clock
    is a parameter (`now`, milliseconds) and the limiter's table is a value. */
module Helpers {
  import opened Common
  import opened Text
  import opened Platform

  // ---------------------------------------------------------------------------
  // Mentions

  /** `@username` when the user has one; otherwise the full name. Unless the
      first name itself starts with `@`, a mention starts with `@` exactly when it
      is a username. */
  function FormatUserMention(u: User): (r: string)
    ensures !StartsWith(u.firstName, "@") ==> (StartsWith(r, "@") <==> Truthy(u.username))
    ensures Truthy(u.username) ==> |r| == |u.username.value| + 1 && r[1..] == u.username.value
    ensures !Truthy(u.username) ==> StartsWith(r, u.firstName)
    ensures !Truthy(u.username) && Truthy(u.lastName) ==> EndsWith(r, u.lastName.value) && ' ' in r
    ensures !Truthy(u.username) && !Truthy(u.lastName) ==> r == u.firstName
  {
    if Truthy(u.username) then "@" + u.username.value else FullName(u)
  }

  /** The first name, followed by a space and the last name when there is one. */
  function FullName(u: User): (name: string)
    ensures StartsWith(name, u.firstName)
    ensures Truthy(u.lastName) ==> EndsWith(name, u.lastName.value) && |name| > |u.firstName| && name[|u.firstName|] == ' '
    ensures !Truthy(u.lastName) ==> name == u.firstName
    ensures !StartsWith(u.firstName, "@") ==> !StartsWith(name, "@")
  {
    var name := u.firstName + (if Truthy(u.lastName) then " " + u.lastName.value else "");
    assert name[..|u.firstName|] == u.firstName;
    assert |u.firstName| > 0 ==> name[..1] == u.firstName[..1];
    name
  }

  /** Two users mentioned by username get the same mention only when their
      usernames agree. */
  lemma MentionIdentifiesUsername(u1: User, u2: User)
    requires Truthy(u1.username) && Truthy(u2.username)
    requires FormatUserMention(u1) == FormatUserMention(u2)
    ensures u1.username == u2.username
  {
    var m := FormatUserMention(u1);
    assert u1.username.value == m[1..] == u2.username.value;
  }

  // ---------------------------------------------------------------------------
  // Markdown escaping

  predicate IsMarkdownSpecial(c: char)
  {
    c in "_*[]()~`>#+=|{}.!-"
  }

  function CountSpecial(s: string): nat
  {
    if |s| == 0 then 0 else (if IsMarkdownSpecial(s[0]) then 1 else 0) + CountSpecial(s[1..])
  }

  /** A backslash before every special character, every other character as is. */
  function EscapeMarkdown(s: string): (r: string)
    ensures |r| == |s| + CountSpecial(s)
    ensures |s| > 0 ==> !IsMarkdownSpecial(r[0])
    decreases |s|
  {
    if |s| == 0 then ""
    else if IsMarkdownSpecial(s[0]) then ['\\', s[0]] + EscapeMarkdown(s[1..])
    else [s[0]] + EscapeMarkdown(s[1..])
  }

  /** Drops a backslash that stands before a special character. */
  function UnescapeMarkdown(t: string): string
    decreases |t|
  {
    if |t| == 0 then ""
    else if |t| >= 2 && t[0] == '\\' && IsMarkdownSpecial(t[1]) then [t[1]] + UnescapeMarkdown(t[2..])
    else [t[0]] + UnescapeMarkdown(t[1..])
  }

  /** Escaping loses nothing: every text is recovered from its escaped form. */
  lemma {:induction false} EscapeRoundTrip(s: string)
    ensures UnescapeMarkdown(EscapeMarkdown(s)) == s
    decreases |s|
  {
    if |s| > 0 {
      EscapeRoundTrip(s[1..]);
      var t := EscapeMarkdown(s);
      if IsMarkdownSpecial(s[0]) {
        assert t[2..] == EscapeMarkdown(s[1..]);
      } else {
        assert t[1..] == EscapeMarkdown(s[1..]);
        assert |t| >= 2 ==> !IsMarkdownSpecial(t[1]);
      }
      assert [s[0]] + s[1..] == s;
    }
  }

  /** Escaping works character by character. */
  lemma {:induction false} EscapeConcat(a: string, b: string)
    ensures EscapeMarkdown(a + b) == EscapeMarkdown(a) + EscapeMarkdown(b)
    decreases |a|
  {
    if |a| == 0 {
      assert a + b == b;
    } else {
      assert (a + b)[1..] == a[1..] + b;
      EscapeConcat(a[1..], b);
    }
  }

  // ---------------------------------------------------------------------------
  // The first run of digits

  predicate NoDigit(s: string)
  {
    forall k :: 0 <= k < |s| ==> !IsDigit(s[k])
  }

  /** The index of the first decimal digit, if any. */
  function FirstDigitIndex(t: string): (i: Option<nat>)
    ensures i.None? <==> NoDigit(t)
    ensures i.Some? ==> i.value < |t| && IsDigit(t[i.value]) && NoDigit(t[..i.value])
    decreases |t|
  {
    if |t| == 0 then None
    else if IsDigit(t[0]) then Some(0)
    else
      var rest := FirstDigitIndex(t[1..]);
      if rest.None? then None
      else
        assert t[..rest.value + 1] == [t[0]] + t[1..][..rest.value];
        Some(rest.value + 1)
  }

  /** The longest prefix made of digits. */
  function DigitRun(t: string): (run: string)
    ensures StartsWith(t, run) && AllDigits(run)
    ensures |run| == |t| || !IsDigit(t[|run|])
    decreases |t|
  {
    if |t| == 0 || !IsDigit(t[0]) then ""
    else [t[0]] + DigitRun(t[1..])
  }

  /** `text.match(/(\d+)/)` read with `parseInt`: the value of the first maximal
      run of digits, or nothing when the text has no digit. */
  function ExtractUserId(text: string): (r: Option<nat>)
    ensures r.None? <==> NoDigit(text)
  {
    match FirstDigitIndex(text)
    case None => None
    case Some(i) => Some(DecimalValue(DigitRun(text[i..])))
  }

  lemma {:induction false} DigitRunOf(d: string, post: string)
    requires AllDigits(d)
    requires |post| == 0 || !IsDigit(post[0])
    ensures DigitRun(d + post) == d
    decreases |d|
  {
    if |d| == 0 {
      assert d + post == post;
    } else {
      assert (d + post)[1..] == d[1..] + post;
      DigitRunOf(d[1..], post);
      assert [d[0]] + d[1..] == d;
    }
  }

  lemma {:induction false} FirstDigitAfter(pre: string, rest: string)
    requires NoDigit(pre)
    requires |rest| > 0 && IsDigit(rest[0])
    ensures FirstDigitIndex(pre + rest) == Some(|pre|)
    decreases |pre|
  {
    if |pre| > 0 {
      assert (pre + rest)[1..] == pre[1..] + rest;
      FirstDigitAfter(pre[1..], rest);
    }
  }

  /** A number written between digit-free text is read back exactly. */
  lemma ExtractUserIdRoundTrip(pre: string, n: nat, post: string)
    requires NoDigit(pre)
    requires |post| == 0 || !IsDigit(post[0])
    ensures ExtractUserId(pre + NatToString(n) + post) == Some(n)
  {
    var d := NatToString(n);
    var t := pre + d + post;
    assert t == pre + (d + post);
    FirstDigitAfter(pre, d + post);
    assert t[|pre|..] == d + post;
    DigitRunOf(d, post);
  }

  // ---------------------------------------------------------------------------
  // Rate limiting

  type RateTable = map<int, seq<int>>

  const DefaultLimit: int := 5
  const DefaultWindow: int := 60000

  /** `a` can be read off `b` left to right, skipping some of `b`'s entries:
      what `filter` keeps from `b`, in `b`'s order. */
  predicate Subsequence(a: seq<int>, b: seq<int>)
    decreases |b|
  {
    || |a| == 0
    || (|b| > 0 && ((a[0] == b[0] && Subsequence(a[1..], b[1..])) || Subsequence(a, b[1..])))
  }

  /** The timestamps still inside the window, in their original order, each as
      many times as it was recorded. */
  function Recent(ts: seq<int>, now: int, window: int): (r: seq<int>)
    ensures forall t :: t in r <==> t in ts && now - t < window
    ensures forall t :: multiset(r)[t] == if now - t < window then multiset(ts)[t] else 0
    ensures |r| <= |ts|
    ensures Subsequence(r, ts)
    decreases |ts|
  {
    if |ts| == 0 then []
    else
      var rest := Recent(ts[1..], now, window);
      assert ([ts[0]] + rest)[1..] == rest;
      assert ts == [ts[0]] + ts[1..];
      assert multiset(ts) == multiset{ts[0]} + multiset(ts[1..]);
      assert forall x :: x in ts <==> x == ts[0] || x in ts[1..];
      if now - ts[0] < window then [ts[0]] + rest else rest
  }

  lemma {:induction false} RecentIdempotent(ts: seq<int>, now: int, window: int)
    ensures Recent(Recent(ts, now, window), now, window) == Recent(ts, now, window)
    decreases |ts|
  {
    if |ts| > 0 {
      RecentIdempotent(ts[1..], now, window);
      var rest := Recent(ts[1..], now, window);
      if now - ts[0] < window {
        assert ([ts[0]] + rest)[1..] == rest;
      }
    }
  }

  datatype RateDecision = RateDecision(limited: bool, table: RateTable)

  function Requests(table: RateTable, u: int): seq<int>
  {
    if u in table then table[u] else []
  }

  /** Keeps the requests of `userId` younger than `window`; at `limit` or more the
      request is refused and the table left as it was, otherwise `now` is recorded
      after the kept requests. */
  function IsRateLimited(table: RateTable, userId: int, now: int, limit: int, window: int): (r: RateDecision)
    ensures r.limited <==> |Recent(Requests(table, userId), now, window)| >= limit
    ensures r.limited ==> r.table == table
    ensures !r.limited ==> userId in r.table && 1 <= |r.table[userId]| <= limit
    ensures !r.limited ==> r.table[userId][|r.table[userId]| - 1] == now
    ensures !r.limited ==> forall t :: t in r.table[userId] ==> t == now || (t in Requests(table, userId) && now - t < window)
    ensures !r.limited ==> |r.table[userId]| == |Recent(Requests(table, userId), now, window)| + 1
    ensures !r.limited ==> forall t :: t in Requests(table, userId) && now - t < window ==> t in r.table[userId]
    ensures !r.limited ==> forall t ::
      multiset(r.table[userId])[t]
        == (if now - t < window then multiset(Requests(table, userId))[t] else 0) + (if t == now then 1 else 0)
    ensures r.table.Keys <= table.Keys + {userId}
    ensures forall u :: u in table && u != userId ==> u in r.table && r.table[u] == table[u]
  {
    var valid := Recent(Requests(table, userId), now, window);
    if |valid| >= limit then RateDecision(true, table)
    else
      var kept := valid + [now];
      assert multiset(kept) == multiset(valid) + multiset{now};
      assert forall t :: t in valid ==> t in kept;
      RateDecision(false, table[userId := kept])
  }

  /** `isRateLimited(userId)` with its default arguments: five requests a minute. */
  function IsRateLimitedByDefault(table: RateTable, userId: int, now: int): (r: RateDecision)
    ensures r.limited <==> |Recent(Requests(table, userId), now, DefaultWindow)| >= DefaultLimit
    ensures r.limited ==> r.table == table
    ensures !r.limited ==> userId in r.table && 1 <= |r.table[userId]| <= 5
    ensures forall u :: u in table && u != userId ==> u in r.table && r.table[u] == table[u]
  {
    IsRateLimited(table, userId, now, DefaultLimit, DefaultWindow)
  }

  /** With a fixed limit, no user's list ever grows beyond it. */
  lemma RateTableStaysBounded(table: RateTable, userId: int, now: int, limit: int, window: int)
    requires forall u :: u in table ==> |table[u]| <= limit
    ensures var r := IsRateLimited(table, userId, now, limit, window);
      forall u :: u in r.table ==> |r.table[u]| <= limit
  {
  }

  /** Drops the users with no request in the last minute and trims the rest. */
  function CleanRateLimiter(table: RateTable, now: int): (r: RateTable)
    ensures forall u :: u in r <==> u in table && |Recent(table[u], now, 60000)| > 0
    ensures forall u :: u in r ==> forall t :: t in r[u] <==> t in table[u] && now - t < 60000
    ensures forall u :: u in r ==> forall t :: multiset(r[u])[t] == if now - t < 60000 then multiset(table[u])[t] else 0
  {
    map u | u in table && |Recent(table[u], now, 60000)| > 0 :: Recent(table[u], now, 60000)
  }

  /** A second sweep at the same instant changes nothing. */
  lemma CleanRateLimiterIdempotent(table: RateTable, now: int)
    ensures CleanRateLimiter(CleanRateLimiter(table, now), now) == CleanRateLimiter(table, now)
  {
    var once := CleanRateLimiter(table, now);
    forall u | u in once
      ensures Recent(once[u], now, 60000) == once[u]
    {
      RecentIdempotent(table[u], now, 60000);
    }
  }
}

=== FILE: keyboards.dfy ===
/** The inline keyboards the bot attaches to its messages. Only the button
    layout and the callback data matter to the rest of the model; labels are
    kept without their emoji. */
module Keyboards {
  import opened Text

  datatype Button = Button(caption: string, data: string)

  type Keyboard = seq<seq<Button>>

  /** The callback data of every button, row by row. */
  function CallbackData(kb: Keyboard): (ds: seq<string>)
    ensures |ds| == |Buttons(kb)|
  {
    if |kb| == 0 then [] else RowData(kb[0]) + CallbackData(kb[1..])
  }

  function RowData(row: seq<Button>): (ds: seq<string>)
    ensures |ds| == |row|
    ensures forall k :: 0 <= k < |row| ==> ds[k] == row[k].data
  {
    seq(|row|, k requires 0 <= k < |row| => row[k].data)
  }

  function Buttons(kb: Keyboard): seq<Button>
  {
    if |kb| == 0 then [] else kb[0] + Buttons(kb[1..])
  }

  function RowSizes(kb: Keyboard): (sizes: seq<nat>)
    ensures |sizes| == |kb|
    ensures forall k :: 0 <= k < |kb| ==> sizes[k] == |kb[k]|
  {
    seq(|kb|, k requires 0 <= k < |kb| => |kb[k]|)
  }

  predicate Distinct(ds: seq<string>)
  {
    forall i, j :: 0 <= i < j < |ds| ==> ds[i] != ds[j]
  }

  const ReplyComplaintPrefix: string := "reply_complaint_"
  const CloseComplaintPrefix: string := "close_complaint_"

  /** The user-facing main menu. */
  function MainMenuKeyboard(): (kb: Keyboard)
    ensures RowSizes(kb) == [2, 2, 1]
    ensures CallbackData(kb) == ["new_complaint", "check_status", "contact_info", "faq", "main_menu"]
  {
    [ [Button("New Complaint", "new_complaint"), Button("Check Status", "check_status")],
      [Button("Contact Info", "contact_info"), Button("FAQ", "faq")],
      [Button("Main Menu", "main_menu")] ]
  }

  /** The admin control panel: four rows of two buttons, no two with the same data. */
  function AdminKeyboard(): (kb: Keyboard)
    ensures RowSizes(kb) == [2, 2, 2, 2]
    ensures |CallbackData(kb)| == 8
    ensures Distinct(CallbackData(kb))
  {
    var kb := [
      [Button("Complaints", "admin_complaints"), Button("Banned Words", "admin_banned_words")],
      [Button("Auto Responses", "admin_auto_responses"), Button("Group Settings", "admin_group_settings")],
      [Button("Statistics", "admin_statistics"), Button("User Management", "admin_users")],
      [Button("Broadcast", "admin_broadcast"), Button("Bot Settings", "admin_bot_settings")] ];
    assert CallbackData(kb) == ["admin_complaints", "admin_banned_words", "admin_auto_responses",
      "admin_group_settings", "admin_statistics", "admin_users", "admin_broadcast", "admin_bot_settings"];
    kb
  }

  /** The buttons attached to a new complaint sent to the admin: reply/close carry
      the complaint id, user info/history carry the user id. */
  function ComplaintAdminKeyboard(complaintId: int, userId: int): (kb: Keyboard)
    ensures RowSizes(kb) == [2, 2]
    ensures CallbackData(kb) == [
      ReplyComplaintPrefix + IntToString(complaintId), CloseComplaintPrefix + IntToString(complaintId),
      "user_info_" + IntToString(userId), "user_history_" + IntToString(userId)]
  {
    [ [Button("Reply", ReplyComplaintPrefix + IntToString(complaintId)),
       Button("Close", CloseComplaintPrefix + IntToString(complaintId))],
      [Button("User Info", "user_info_" + IntToString(userId)),
       Button("User History", "user_history_" + IntToString(userId))] ]
  }

  /** Moderation actions on one group member, rows of sizes 2, 2, 1. */
  function GroupModerationKeyboard(userId: int): (kb: Keyboard)
    ensures RowSizes(kb) == [2, 2, 1]
    ensures CallbackData(kb) == [
      "warn_" + IntToString(userId), "mute_" + IntToString(userId), "kick_" + IntToString(userId),
      "ban_" + IntToString(userId), "info_" + IntToString(userId)]
  {
    var id := IntToString(userId);
    var kb := [
      [Button("Warn", "warn_" + id), Button("Mute", "mute_" + id)],
      [Button("Kick", "kick_" + id), Button("Ban", "ban_" + id)],
      [Button("User Info", "info_" + id)] ];
    assert CallbackData(kb[2..]) == ["info_" + id];
    assert CallbackData(kb[1..]) == ["kick_" + id, "ban_" + id, "info_" + id];
    kb
  }

  function BroadcastKeyboard(): (kb: Keyboard)
    ensures RowSizes(kb) == [2, 2]
    ensures Distinct(CallbackData(kb))
  {
    var kb := [
      [Button("All Users", "broadcast_all"), Button("Group Only", "broadcast_group")],
      [Button("Custom Message", "broadcast_custom"), Button("Cancel", "broadcast_cancel")] ];
    assert CallbackData(kb) == ["broadcast_all", "broadcast_group", "broadcast_custom", "broadcast_cancel"];
    kb
  }

  /** Confirm carries the action and the target, cancel only the action. */
  function ConfirmationKeyboard(action: string, targetId: string): (kb: Keyboard)
    ensures RowSizes(kb) == [2]
    ensures CallbackData(kb) == ["confirm_" + action + "_" + targetId, "cancel_" + action]
  {
    [ [Button("Confirm", "confirm_" + action + "_" + targetId), Button("Cancel", "cancel_" + action)] ]
  }

  /** `split('_')` of `<tag>_<id>` gives back the tag and the id when neither
      holds an underscore. */
  lemma TaggedSplit(tag: string, id: string)
    requires '_' !in tag && '_' !in id
    ensures Split(tag + "_" + id, '_') == [tag, id]
  {
    assert tag + "_" + id == tag + ['_'] + id;
    SplitCons(tag, '_', id);
    SplitOfPlain(id, '_');
  }

  /** Every moderation button splits into its verb and the member's id as
      text. */
  lemma GroupModerationDataSplit(userId: int)
    ensures var ds := CallbackData(GroupModerationKeyboard(userId));
      var id := IntToString(userId);
      && Split(ds[0], '_') == ["warn", id]
      && Split(ds[1], '_') == ["mute", id]
      && Split(ds[2], '_') == ["kick", id]
      && Split(ds[3], '_') == ["ban", id]
      && Split(ds[4], '_') == ["info", id]
  {
    var id := IntToString(userId);
    IntToStringAvoids(userId, '_');
    assert "warn" + "_" == "warn_";
    TaggedSplit("warn", id);
    assert "mute" + "_" == "mute_";
    TaggedSplit("mute", id);
    assert "kick" + "_" == "kick_";
    TaggedSplit("kick", id);
    assert "ban" + "_" == "ban_";
    TaggedSplit("ban", id);
    assert "info" + "_" == "info_";
    TaggedSplit("info", id);
  }

  /** The confirm button splits into `confirm`, the action and the target; the
      cancel button into `cancel` and the action. */
  lemma ConfirmationDataSplit(action: string, targetId: string)
    requires '_' !in action && '_' !in targetId
    ensures var ds := CallbackData(ConfirmationKeyboard(action, targetId));
      && Split(ds[0], '_') == ["confirm", action, targetId]
      && Split(ds[1], '_') == ["cancel", action]
  {
    assert "confirm_" + action + "_" + targetId == "confirm" + ['_'] + (action + "_" + targetId);
    SplitCons("confirm", '_', action + "_" + targetId);
    TaggedSplit(action, targetId);
    assert "cancel" + "_" == "cancel_";
    TaggedSplit("cancel", action);
  }
}

=== FILE: platform.dfy ===
/** What the chat platform delivers (messages, callback queries) and what the bot
    asks of it (the action log). A handler is a function from an event, the store
    and the outcomes of the calls that can fail, to the next store and the calls
    it issued, in order. */
module Platform {
  import opened Common
  import opened Keyboards
  import opened Database

  datatype User = User(id: int, username: Option<string>, firstName: string, lastName: Option<string>)

  /** What the complaint handlers store for a user without a username. */
  const NoUsername: string := "No username"

  datatype ChatKind = Private | Group | Supergroup | Channel

  datatype Chat = Chat(id: int, kind: ChatKind)

  datatype Message = Message(messageId: int, from: User, chat: Chat, text: Option<string>)

  datatype CallbackQuery = CallbackQuery(id: string, from: User, chat: Chat, data: string)

  /** A send target: a numeric chat id, or the text the source passes straight
      through (an environment value or a token parsed from a command). */
  datatype ChatRef = ChatId(id: int) | ChatText(text: string)

  datatype Action =
    | Send(to: ChatRef, text: string, replyTo: Option<int>, keyboard: Option<Keyboard>)
    | Delete(chat: int, messageId: int)
    | Restrict(chat: int, userId: int, untilDate: int)
    | Kick(chat: int, userId: int)
    | Unban(chat: int, userId: int)
    | AnswerCallback(queryId: string)

  /** A plain text message without reply threading or keyboard. */
  function Say(to: ChatRef, text: string): Action
  {
    Send(to, text, None, None)
  }

  /** Whether the calls that the source guards with a try/catch, or whose result
      it inspects, succeed. `rescueOk` covers the webhook's last-resort calls: the
      sends made from its `catch` blocks and its callback answer. Every other call
      is taken to succeed. */
  datatype Outcomes = Outcomes(storeOk: bool, deliveryOk: bool, restrictOk: bool, noticeOk: bool, rescueOk: bool)

  const AllSucceed: Outcomes := Outcomes(true, true, true, true, true)

  datatype Effects = Effects(store: Store, actions: seq<Action>)

  /** The calls a helper issued and the boolean it reports back to its caller. */
  datatype Attempt = Attempt(ok: bool, actions: seq<Action>)

  /** `msg.text` is truthy. */
  predicate HasText(msg: Message)
  {
    Truthy(msg.text)
  }

  predicate IsRestrict(a: Action)
  {
    a.Restrict?
  }

  predicate IsCallbackAnswer(a: Action)
  {
    a.AnswerCallback?
  }

  /** How many calls in the log are callback answers. */
  function CountAnswers(actions: seq<Action>): nat
  {
    if |actions| == 0 then 0
    else (if IsCallbackAnswer(actions[0]) then 1 else 0) + CountAnswers(actions[1..])
  }

  lemma {:induction false} CountAnswersAppend(a: seq<Action>, b: seq<Action>)
    ensures CountAnswers(a + b) == CountAnswers(a) + CountAnswers(b)
    decreases |a|
  {
    if |a| > 0 {
      assert (a + b)[1..] == a[1..] + b;
      CountAnswersAppend(a[1..], b);
    } else {
      assert a + b == b;
    }
  }

  /** `@${username || first_name}` as the moderation notices write it. */
  function Handle(u: User): string
  {
    StrOr(u.username, u.firstName)
  }
}

=== FILE: scenarios.dfy ===
/** Properties of several steps in a row: a complaint filed by a customer and
    closed by the admin through the keyboard attached to it, and the default
    auto-responses. */
module Scenarios {
  import opened Common
  import opened Text
  import opened Keyboards
  import opened Database
  import opened Platform
  import opened AutoResponses
  import opened GroupManagement
  import opened Admin
  import opened CustomerSupport
  import opened Bot

  /** A customer's complaint, filed with the admin configured, is closed by the
      admin pressing the Close button attached to the notice: that complaint's
      status becomes `closed` and every earlier complaint is left as it was. */
  lemma FileThenClose(cfg: BotConfig, msg: Message, st: Store, q: CallbackQuery)
    requires HasText(msg) && cfg.adminEnv.Some? && IsAdmin(cfg, q.from.id)
    requires var filed := HandleComplaint(cfg.adminEnv, msg, st, true);
      q.data == CallbackData(filed.actions[1].keyboard.value)[1]
    ensures var filed := HandleComplaint(cfg.adminEnv, msg, st, true);
      var n := |st.complaints|;
      && |filed.store.complaints| == n + 1
      && HandleCallbackQuery(cfg, q, filed.store).store.complaints
         == st.complaints + [filed.store.complaints[n].(status := Closed)]
  {
    var filed := HandleComplaint(cfg.adminEnv, msg, st, true);
    var n := |st.complaints|;
    var c := filed.store.complaints[n];
    assert filed.actions[1].keyboard == Some(ComplaintAdminKeyboard(c.id, msg.from.id));
    ComplaintCallbackRoundTrip(c.id, msg.from.id);
    assert forall k :: 0 <= k < n ==> filed.store.complaints[k].id < c.id by {
      assert filed.store.complaints[..n] == st.complaints;
      forall k | 0 <= k < n ensures filed.store.complaints[k].id < c.id {
        assert filed.store.complaints[k] == st.complaints[k];
      }
    }
    CloseNewest(q, filed.store, n);
    assert filed.store.complaints[..n] == st.complaints;
  }

  /** Closing the newest complaint, whose id is larger than every other, changes
      that row's status and no other row. */
  lemma CloseNewest(q: CallbackQuery, s: Store, n: nat)
    requires |s.complaints| == n + 1
    requires forall k :: 0 <= k < n ==> s.complaints[k].id < s.complaints[n].id
    requires ParseAdminCallback(q.data) == CloseComplaint(IntToString(s.complaints[n].id))
    ensures HandleAdminCallback(q, s).store.complaints == s.complaints[..n] + [s.complaints[n].(status := Closed)]
  {
    var closed := HandleAdminCallback(q, s).store;
    forall k | 0 <= k < n
      ensures closed.complaints[k] == s.complaints[k]
    {
      if IntToString(s.complaints[k].id) == IntToString(s.complaints[n].id) {
        IntToStringInjective(s.complaints[k].id, s.complaints[n].id);
      }
    }
    assert closed.complaints == s.complaints[..n] + [s.complaints[n].(status := Closed)];
  }

  /** Four space-free words joined by single spaces split back into those words. */
  lemma {:induction false} FourWords(a: string, b: string, c: string, d: string)
    requires ' ' !in a && ' ' !in b && ' ' !in c && ' ' !in d
    ensures Split(a + [' '] + (b + [' '] + (c + [' '] + d)), ' ') == [a, b, c, d]
  {
    SplitCons(a, ' ', b + [' '] + (c + [' '] + d));
    SplitCons(b, ' ', c + [' '] + d);
    SplitCons(c, ' ', d);
    SplitOfPlain(d, ' ');
  }

  /** The first default trigger lists "fake" among its words. */
  lemma AirdropTriggerWords()
    ensures "fake" in Split(DefaultTriggers[0], ' ')
  {
    var a, b, c, d := "airdrop", "real", "fake", "legit";
    assert DefaultTriggers[0] == a + [' '] + (b + [' '] + (c + [' '] + d));
    FourWords(a, b, c, d);
  }

  /** After the defaults are set up on an empty list, a group message mentioning
      "fake" in any letter case gets the airdrop notice, the first default, even
      though the scam row also lists "fake". */
  lemma FakeGetsAirdropNotice(msg: Message, st: Store)
    requires HasText(msg) && st.autoResponses == []
    requires Contains(Lower(msg.text.value), "fake")
    ensures CheckAndRespond(msg, Some(SetupDefaultResponses(st).autoResponses))
         == [Send(ChatId(msg.chat.id), DefaultReplies[0], Some(msg.messageId), None)]
  {
    var rows := SetupDefaultResponses(st).autoResponses;
    assert rows == DefaultRows();
    AirdropTriggerWords();
    assert MatchesTrigger(Lower(msg.text.value), rows[0].trigger);
    assert FirstMatch(Lower(msg.text.value), rows) == Some(0);
  }
}

=== FILE: text.dfy ===
/** String primitives with the semantics the bot relies on: ASCII lower-casing,
    `String.prototype.includes`, `startsWith`, `split` on a character or on a
    separator string, `join`, decimal rendering of integers and decimal digit runs. */
module Text {

  // ---------------------------------------------------------------------------
  // Case

  predicate IsUpper(c: char)
  {
    'A' <= c <= 'Z'
  }

  function LowerChar(c: char): char
  {
    if IsUpper(c) then (c as int + 32) as char else c
  }

  /** A string with no ASCII upper-case letter. */
  predicate IsLowerCase(s: string)
  {
    forall i :: 0 <= i < |s| ==> !IsUpper(s[i])
  }

  /** `toLowerCase`, restricted to the ASCII letters. */
  function Lower(s: string): (r: string)
    ensures |r| == |s|
    ensures IsLowerCase(r)
    ensures forall i :: 0 <= i < |s| && !IsUpper(s[i]) ==> r[i] == s[i]
    ensures forall i :: 0 <= i < |s| && IsUpper(s[i]) ==> r[i] as int == s[i] as int + 32
    ensures IsLowerCase(s) ==> r == s
  {
    seq(|s|, i requires 0 <= i < |s| => LowerChar(s[i]))
  }

  lemma LowerIdempotent(s: string)
    ensures Lower(Lower(s)) == Lower(s)
  {
  }

  // ---------------------------------------------------------------------------
  // Substrings

  /** `sub` occurs in `s` starting at index `i`. */
  predicate OccursAt(s: string, sub: string, i: nat)
  {
    i + |sub| <= |s| && s[i..i + |sub|] == sub
  }

  /** `s.includes(sub)`. */
  predicate Contains(s: string, sub: string)
  {
    exists i: nat :: i <= |s| && OccursAt(s, sub, i)
  }

  /** `s.startsWith(p)`. */
  predicate StartsWith(s: string, p: string)
  {
    |p| <= |s| && s[..|p|] == p
  }

  predicate EndsWith(s: string, p: string)
  {
    |p| <= |s| && s[|s| - |p|..] == p
  }

  lemma ContainsEmpty(s: string)
    ensures Contains(s, "")
  {
    assert OccursAt(s, "", 0);
  }

  /** A text starts with each of its prefixes, and not with a text that differs
      from it at the first character after a shared part. */
  lemma StartsWithFirstDiffers(p: string, a: string, b: string, rest: string)
    requires |a| > 0 && |b| > 0 && a[0] != b[0]
    ensures StartsWith(p + a + rest, p + a)
    ensures !StartsWith(p + a + rest, p + b)
  {
    var s := p + a + rest;
    assert s[..|p + a|] == p + a;
    assert s[|p|] == a[0];
    assert (p + b)[|p|] == b[0];
    assert |p + b| <= |s| ==> s[..|p + b|][|p|] == s[|p|];
  }

  lemma ContainsInfix(a: string, b: string, c: string)
    ensures Contains(a + b + c, b)
  {
    assert (a + b + c)[|a|..|a| + |b|] == b;
    assert OccursAt(a + b + c, b, |a|);
  }

  /** Both marked pieces of `a + x + b + y + c` occur in it. */
  lemma ContainsBoth(a: string, x: string, b: string, y: string, c: string)
    ensures Contains(a + x + b + y + c, x)
    ensures Contains(a + x + b + y + c, y)
  {
    ContainsInfix(a, x, b + y + c);
    assert a + x + (b + y + c) == a + x + b + y + c;
    ContainsInfix(a + x + b, y, c);
  }

  lemma ContainsFront(a: string, b: string)
    ensures Contains(a + b, a)
  {
    assert (a + b)[0..|a|] == a;
    assert OccursAt(a + b, a, 0);
  }

  lemma ContainsSuffix(a: string, b: string)
    ensures Contains(a + b, b)
  {
    assert (a + b)[|a|..|a| + |b|] == b;
    assert OccursAt(a + b, b, |a|);
  }

  /** Text put in front keeps every occurrence. */
  lemma ContainsAfter(a: string, b: string, c: string)
    requires Contains(b, c)
    ensures Contains(a + b, c)
  {
    ContainsSuffix(a, b);
    ContainsTransitive(a + b, b, c);
  }

  lemma ContainsPrefix(s: string, p: string)
    requires StartsWith(s, p)
    ensures Contains(s, p)
  {
    assert OccursAt(s, p, 0);
  }

  lemma ContainsTransitive(a: string, b: string, c: string)
    requires Contains(a, b) && Contains(b, c)
    ensures Contains(a, c)
  {
    var i: nat :| i <= |a| && OccursAt(a, b, i);
    var j: nat :| j <= |b| && OccursAt(b, c, j);
    assert forall k :: 0 <= k < |b| ==> a[i + k] == b[k] by {
      assert a[i..i + |b|] == b;
    }
    assert a[i + j..i + j + |c|] == b[j..j + |c|];
    assert OccursAt(a, c, i + j);
  }

  // ---------------------------------------------------------------------------
  // Splitting on one character and joining back

  /** `s.split(c)`: every occurrence of `c` ends a part; there is always one part
      more than there are separators, empty parts included. */
  function Split(s: string, c: char): (parts: seq<string>)
    ensures |parts| >= 1
    ensures forall k :: 0 <= k < |parts| ==> c !in parts[k]
    decreases |s|
  {
    if |s| == 0 then [""]
    else
      var rest := Split(s[1..], c);
      if s[0] == c then [""] + rest
      else [[s[0]] + rest[0]] + rest[1..]
  }

  /** There is one part more than there are separators. */
  lemma {:induction false} SplitCount(s: string, c: char)
    ensures |Split(s, c)| == multiset(s)[c] + 1
    decreases |s|
  {
    if |s| > 0 {
      SplitCount(s[1..], c);
      assert s == [s[0]] + s[1..];
    }
  }

  /** The parts written one after the other. */
  function Concat(parts: seq<string>): string
  {
    if |parts| == 0 then "" else parts[0] + Concat(parts[1..])
  }

  /** Every part occurs in the concatenation. */
  lemma {:induction false} ConcatHasPart(parts: seq<string>, k: nat)
    requires k < |parts|
    ensures Contains(Concat(parts), parts[k])
    decreases k
  {
    if k == 0 {
      ContainsFront(parts[0], Concat(parts[1..]));
    } else {
      ConcatHasPart(parts[1..], k - 1);
      assert parts[1..][k - 1] == parts[k];
      ContainsAfter(parts[0], Concat(parts[1..]), parts[k]);
    }
  }

  /** `parts.join(c)`. */
  function Join(parts: seq<string>, c: char): string
  {
    if |parts| == 0 then ""
    else if |parts| == 1 then parts[0]
    else parts[0] + [c] + Join(parts[1..], c)
  }

  lemma {:induction false} SplitOfPlain(a: string, c: char)
    requires c !in a
    ensures Split(a, c) == [a]
    decreases |a|
  {
    if |a| > 0 {
      assert a[0] != c;
      SplitOfPlain(a[1..], c);
      assert [a[0]] + a[1..] == a;
    }
  }

  /** Splitting at the first separator peels off exactly the text before it. */
  lemma {:induction false} SplitCons(a: string, c: char, b: string)
    requires c !in a
    ensures Split(a + [c] + b, c) == [a] + Split(b, c)
    decreases |a|
  {
    var s := a + [c] + b;
    if |a| == 0 {
      assert s == [c] + b;
      assert s[1..] == b;
    } else {
      assert s[1..] == a[1..] + [c] + b;
      SplitCons(a[1..], c, b);
      assert [a[0]] + a[1..] == a;
    }
  }

  /** Joining the parts of a split gives back the original text. */
  lemma {:induction false} JoinSplit(s: string, c: char)
    ensures Join(Split(s, c), c) == s
    decreases |s|
  {
    if |s| > 0 {
      var rest := Split(s[1..], c);
      JoinSplit(s[1..], c);
      if s[0] == c {
        assert Split(s, c) == [""] + rest;
        assert ([""] + rest)[1..] == rest;
      } else {
        var parts := Split(s, c);
        assert parts == [[s[0]] + rest[0]] + rest[1..];
        if |rest| == 1 {
          assert Join(parts, c) == [s[0]] + rest[0];
        } else {
          assert parts[1..] == rest[1..];
          assert Join(parts, c) == [s[0]] + rest[0] + [c] + Join(rest[1..], c);
        }
      }
    }
  }

  /** Splitting a join of separator-free parts gives back the parts. */
  lemma {:induction false} SplitJoin(parts: seq<string>, c: char)
    requires |parts| >= 1
    requires forall k :: 0 <= k < |parts| ==> c !in parts[k]
    ensures Split(Join(parts, c), c) == parts
    decreases |parts|
  {
    if |parts| == 1 {
      SplitOfPlain(parts[0], c);
    } else {
      SplitJoin(parts[1..], c);
      SplitCons(parts[0], c, Join(parts[1..], c));
      assert [parts[0]] + parts[1..] == parts;
    }
  }

  /** The first part of a split is the longest separator-free prefix of the text:
      it ends at the text's end or at the first separator. */
  lemma {:induction false} SplitHeadIsPrefix(s: string, c: char)
    ensures StartsWith(s, Split(s, c)[0])
    ensures var h := Split(s, c)[0]; |h| == |s| || s[|h|] == c
    decreases |s|
  {
    if |s| > 0 && s[0] != c {
      SplitHeadIsPrefix(s[1..], c);
    }
  }

  // ---------------------------------------------------------------------------
  // Splitting on a separator string

  /** `s.split(sep)` for a non-empty separator: occurrences are found left to
      right without overlap. */
  function SplitOn(s: string, sep: string): (parts: seq<string>)
    requires |sep| > 0
    ensures |parts| >= 1
    decreases |s|
  {
    if StartsWith(s, sep) then [""] + SplitOn(s[|sep|..], sep)
    else if |s| == 0 then [""]
    else
      var rest := SplitOn(s[1..], sep);
      [[s[0]] + rest[0]] + rest[1..]
  }

  /** `parts.join(sep)`. */
  function JoinOn(parts: seq<string>, sep: string): string
  {
    if |parts| == 0 then ""
    else if |parts| == 1 then parts[0]
    else parts[0] + sep + JoinOn(parts[1..], sep)
  }

  /** Joining the parts of a separator split gives back the original text. */
  lemma {:induction false} JoinSplitOn(s: string, sep: string)
    requires |sep| > 0
    ensures JoinOn(SplitOn(s, sep), sep) == s
    decreases |s|
  {
    if StartsWith(s, sep) {
      var rest := SplitOn(s[|sep|..], sep);
      JoinSplitOn(s[|sep|..], sep);
      JoinOnFront("", rest, sep);
      assert ([""] + rest)[1..] == rest;
      assert s == sep + s[|sep|..];
    } else if |s| > 0 {
      var rest := SplitOn(s[1..], sep);
      JoinSplitOn(s[1..], sep);
      JoinOnGlue([s[0]], rest, sep);
      assert s == [s[0]] + s[1..];
    }
  }

  /** A part put in front adds itself and one separator. */
  lemma JoinOnFront(x: string, rest: seq<string>, sep: string)
    requires |rest| >= 1
    ensures JoinOn([x] + rest, sep) == x + sep + JoinOn(rest, sep)
  {
    assert ([x] + rest)[1..] == rest;
  }

  /** Text glued to the front of the first part is glued to the front of the join. */
  lemma JoinOnGlue(c: string, rest: seq<string>, sep: string)
    requires |rest| >= 1
    ensures JoinOn([c + rest[0]] + rest[1..], sep) == c + JoinOn(rest, sep)
  {
    if |rest| > 1 {
      assert ([c + rest[0]] + rest[1..])[1..] == rest[1..];
      assert c + rest[0] + sep + JoinOn(rest[1..], sep) == c + (rest[0] + sep + JoinOn(rest[1..], sep));
    }
  }

  /** The separator of `/addresponse`'s trigger and response. */
  const BarSeparator: string := " | "

  /** A text with no `|` contains no occurrence of `" | "`: it is one part. */
  lemma {:induction false} SplitOnBarFree(b: string)
    requires '|' !in b
    ensures SplitOn(b, BarSeparator) == [b]
    decreases |b|
  {
    if |b| >= 3 {
      assert b[1] != '|';
      assert b[..3][1] == b[1];
    }
    assert !StartsWith(b, BarSeparator);
    if |b| > 0 {
      SplitOnBarFree(b[1..]);
      assert [b[0]] + b[1..] == b;
    }
  }

  /** Two `|`-free texts joined by `" | "` split back into exactly those two. */
  lemma {:induction false} SplitOnBarPair(a: string, b: string)
    requires '|' !in a && '|' !in b
    ensures SplitOn(a + BarSeparator + b, BarSeparator) == [a, b]
    decreases |a|
  {
    var s := a + BarSeparator + b;
    if |a| == 0 {
      assert s == BarSeparator + b;
      assert StartsWith(s, BarSeparator);
      assert s[3..] == b;
      SplitOnBarFree(b);
    } else {
      assert s[1] != '|' by {
        if |a| >= 2 {
          assert s[1] == a[1];
        } else {
          assert s[1] == ' ';
        }
      }
      assert !StartsWith(s, BarSeparator);
      assert s[1..] == a[1..] + BarSeparator + b;
      SplitOnBarPair(a[1..], b);
      assert [a[0]] + a[1..] == a;
    }
  }

  /** A `|`-free text before the first `" | "` is the first part; the split
      goes on with whatever follows. */
  lemma {:induction false} SplitOnBarCons(a: string, rest: string)
    requires '|' !in a
    ensures SplitOn(a + BarSeparator + rest, BarSeparator) == [a] + SplitOn(rest, BarSeparator)
    decreases |a|
  {
    var s := a + BarSeparator + rest;
    if |a| == 0 {
      assert s == BarSeparator + rest;
      assert StartsWith(s, BarSeparator);
      assert s[3..] == rest;
    } else {
      assert s[1] != '|' by {
        if |a| >= 2 {
          assert s[1] == a[1];
        } else {
          assert s[1] == ' ';
        }
      }
      assert !StartsWith(s, BarSeparator);
      assert s[1..] == a[1..] + BarSeparator + rest;
      SplitOnBarCons(a[1..], rest);
      assert [a[0]] + a[1..] == a;
    }
  }

  // ---------------------------------------------------------------------------
  // Decimal numbers

  predicate IsDigit(c: char)
  {
    '0' <= c <= '9'
  }

  function DigitChar(d: nat): (c: char)
    requires d < 10
    ensures IsDigit(c)
  {
    ('0' as int + d) as char
  }

  function DigitValue(c: char): nat
    requires IsDigit(c)
  {
    c as int - '0' as int
  }

  predicate AllDigits(s: string)
  {
    forall k :: 0 <= k < |s| ==> IsDigit(s[k])
  }

  /** The value of a run of decimal digits, most significant first. */
  function DecimalValue(s: string): nat
    requires AllDigits(s)
    decreases |s|
  {
    if |s| == 0 then 0 else DecimalValue(s[..|s| - 1]) * 10 + DigitValue(s[|s| - 1])
  }

  /** Decimal rendering of a natural number, as JavaScript prints it. */
  function NatToString(n: nat): (s: string)
    ensures |s| >= 1
    ensures AllDigits(s)
    ensures DecimalValue(s) == n
    decreases n
  {
    if n < 10 then [DigitChar(n)]
    else
      var hi := NatToString(n / 10);
      var s := hi + [DigitChar(n % 10)];
      assert s[..|s| - 1] == hi;
      s
  }

  /** Decimal rendering of an integer (`String(n)`), with a leading `-` for negatives. */
  function IntToString(n: int): (s: string)
    ensures |s| >= 1
    ensures s[0] == '-' <==> n < 0
    ensures forall k :: 0 <= k < |s| ==> IsDigit(s[k]) || (k == 0 && s[k] == '-')
  {
    if n < 0 then "-" + NatToString(-n) else NatToString(n)
  }

  /** Different integers render differently, so the rendering identifies the integer. */
  lemma IntToStringInjective(a: int, b: int)
    requires IntToString(a) == IntToString(b)
    ensures a == b
  {
    if a < 0 && b < 0 {
      assert IntToString(a)[1..] == NatToString(-a);
      assert IntToString(b)[1..] == NatToString(-b);
    }
  }

  /** No character other than a digit or `-` occurs in a rendered integer. */
  lemma IntToStringAvoids(n: int, c: char)
    requires !IsDigit(c) && c != '-'
    ensures c !in IntToString(n)
  {
  }
}

=== FILE: warning_cycle.dfy ===
/** The warn-warn-mute cycle of the banned-word handler over several banned
    messages from the same sender, every call succeeding. */
module WarningCycle {
  import opened Common
  import opened Database
  import opened Platform
  import opened GroupManagement

  predicate NoRestrict(actions: seq<Action>)
  {
    forall a :: a in actions ==> !IsRestrict(a)
  }

  /** With a limit of 3 and a clean record, three banned messages in a row give
      the counts 1 and 2 without a restriction, then a restriction until
      `MuteUntil(now, minutes)`, that is `now/1000 + 60 * minutes`, and an empty
      log; a fourth starts over at 1. */
  lemma ThreeStrikes(msg: Message, st: Store, now: int)
    requires UserWarnings(st.warnings, msg.from.id) == []
    requires MaxWarnings(st.settings) == 3
    ensures var u := msg.from.id;
      var r1 := HandleBannedWord(msg, st, now, AllSucceed);
      var r2 := HandleBannedWord(msg, r1.store, now, AllSucceed);
      var r3 := HandleBannedWord(msg, r2.store, now, AllSucceed);
      var r4 := HandleBannedWord(msg, r3.store, now, AllSucceed);
      && |UserWarnings(r1.store.warnings, u)| == 1 && NoRestrict(r1.actions)
      && |UserWarnings(r2.store.warnings, u)| == 2 && NoRestrict(r2.actions)
      && r3.actions[1] == Restrict(msg.chat.id, u, MuteUntil(now, MuteMinutes(st.settings)))
      && UserWarnings(r3.store.warnings, u) == []
      && |UserWarnings(r4.store.warnings, u)| == 1 && NoRestrict(r4.actions)
  {
    var u := msg.from.id;
    var r1 := HandleBannedWord(msg, st, now, AllSucceed);
    assert r1.store.settings == st.settings by {
      assert r1.store.(warnings := st.warnings) == st;
    }
    var r2 := HandleBannedWord(msg, r1.store, now, AllSucceed);
    assert r2.store.settings == st.settings by {
      assert r2.store.(warnings := r1.store.warnings) == r1.store;
    }
    var r3 := HandleBannedWord(msg, r2.store, now, AllSucceed);
    assert r3.store.settings == st.settings by {
      assert r3.store.(warnings := r2.store.warnings) == r2.store;
    }
    var r4 := HandleBannedWord(msg, r3.store, now, AllSucceed);
  }

  /** `ss[i + 1]` is the store after the banned-word handler has seen the same
      sender's message in store `ss[i]`, every call succeeding. */
  predicate StrikeChain(msg: Message, ss: seq<Store>, now: int)
  {
    forall i :: 0 <= i < |ss| - 1 ==> ss[i + 1] == HandleBannedWord(msg, ss[i], now, AllSucceed).store
  }

  /** One banned message below the limit adds one entry to the sender's record. */
  lemma OneStrike(msg: Message, s: Store, now: int)
    requires |UserWarnings(s.warnings, msg.from.id)| + 1 < MaxWarnings(s.settings)
    ensures var hit := HandleBannedWord(msg, s, now, AllSucceed);
      && |UserWarnings(hit.store.warnings, msg.from.id)| == |UserWarnings(s.warnings, msg.from.id)| + 1
      && NoRestrict(hit.actions)
      && hit.store.settings == s.settings
  {
  }

  /** Below the limit, after `i` banned messages from a clean record the sender
      has `i` entries, and the settings are those of the start. */
  lemma {:induction false} ChainCount(msg: Message, ss: seq<Store>, now: int, i: nat)
    requires StrikeChain(msg, ss, now)
    requires i < |ss| && UserWarnings(ss[0].warnings, msg.from.id) == []
    requires i < MaxWarnings(ss[0].settings)
    ensures |UserWarnings(ss[i].warnings, msg.from.id)| == i
    ensures ss[i].settings == ss[0].settings
  {
    if i > 0 {
      ChainCount(msg, ss, now, i - 1);
      OneStrike(msg, ss[i - 1], now);
    }
  }

  /** For any limit, from a clean record: the `k`-th banned message below the
      limit brings the count to `k` and restricts no one; the one that reaches
      the limit restricts the sender until `MuteUntil(now, minutes)` and clears
      the log. */
  lemma KthStrike(msg: Message, ss: seq<Store>, now: int, k: nat)
    requires StrikeChain(msg, ss, now)
    requires k < |ss| && UserWarnings(ss[0].warnings, msg.from.id) == []
    requires 1 <= k <= MaxWarnings(ss[0].settings)
    ensures var hit := HandleBannedWord(msg, ss[k - 1], now, AllSucceed);
      && (k < MaxWarnings(ss[0].settings) ==>
            |UserWarnings(ss[k].warnings, msg.from.id)| == k && NoRestrict(hit.actions))
      && (k == MaxWarnings(ss[0].settings) ==>
            && hit.actions[1] == Restrict(msg.chat.id, msg.from.id, MuteUntil(now, MuteMinutes(ss[0].settings)))
            && UserWarnings(ss[k].warnings, msg.from.id) == [])
  {
    ChainCount(msg, ss, now, k - 1);
    if k < MaxWarnings(ss[0].settings) {
      OneStrike(msg, ss[k - 1], now);
    }
  }
}

=== FILE: webhook.dfy ===
/** The deployed entry point: one HTTP request carrying one update. Only POST is
    served; a message takes precedence over a callback, which is only answered.
    A message is either the exact `/start`, an admin's `/reply`, or a customer's
    non-command private text filed as a complaint, with its own store wrapper
    that falls back to a random id when there is no store client or it throws. */
module Webhook {
  import opened Common
  import opened Text
  import opened Database
  import opened Platform
  import opened Commands

  /** The store client: not configured, configured but throwing on every query,
      or answering with data or an error. */
  datatype Client = NoClient | ThrowingClient | LiveClient

  /** `ADMIN_ID` as raw text, whether `BOT_TOKEN` is set, and the store client. */
  datatype WebhookConfig = WebhookConfig(adminEnv: Option<string>, botToken: bool, client: Client)

  datatype Update = Update(message: Option<Message>, callback: Option<CallbackQuery>)

  datatype Request = Request(verb: string, update: Update)

  datatype Response = Response(status: int, store: Store, actions: seq<Action>)

  // ---------------------------------------------------------------------------
  // The in-file store wrapper

  /** `database.addUser`: never throws; the row is written only by a working
      client whose upsert succeeds. */
  function WebhookAddUser(client: Client, st: Store, u: User, storeOk: bool): (r: Store)
    ensures client == LiveClient && storeOk ==> r.users.Keys == st.users.Keys + {u.id}
    ensures client == LiveClient && storeOk ==> r.users[u.id] == UserRow(u.id, u.username, u.firstName, u.lastName)
    ensures !(client == LiveClient && storeOk) ==> r == st
  {
    if client == LiveClient && storeOk then AddUser(st, UserRow(u.id, u.username, u.firstName, u.lastName))
    else st
  }

  /** What `database.addComplaint` hands back: a stored id, an error with no
      data, or the fallback `Math.floor(Math.random() * 1000)`. */
  datatype ComplaintResult = Stored(id: int) | NoData | Fallback(draw: int)

  /** `database.addComplaint`: a working client inserts a pending row and returns
      it, or returns an error; a missing or throwing client yields the random
      fallback id, drawn from [0, 1000), and stores nothing. */
  function WebhookAddComplaint(client: Client, st: Store, userId: int, text: string, username: string,
                               storeOk: bool, draw: int): (r: (Store, ComplaintResult))
    requires 0 <= draw < 1000
    ensures client == LiveClient && storeOk ==>
      && r.1.Stored? && r.1.id >= 1
      && r.0.complaints == st.complaints + [Complaint(r.1.id, userId, username, text, Pending)]
      && r.0.(complaints := st.complaints) == st
    ensures client == LiveClient && !storeOk ==> r == (st, NoData)
    ensures client != LiveClient ==> r == (st, Fallback(draw))
  {
    if client != LiveClient then (st, Fallback(draw))
    else if !storeOk then (st, NoData)
    else
      var ins := AddComplaint(st, userId, text, username);
      (ins.store, Stored(ins.id))
  }

  /** `result.data ? result.data[0]?.id || 'Unknown' : 'Unknown'`: the id as text,
      or `Unknown` when there is no data or the id is the falsy 0. */
  function ComplaintIdText(r: ComplaintResult): (t: string)
    ensures r.NoData? ==> t == "Unknown"
    ensures r.Stored? && r.id != 0 ==> t == IntToString(r.id)
    ensures r.Fallback? && r.draw != 0 ==> t == IntToString(r.draw)
    ensures r.Fallback? && r.draw == 0 ==> t == "Unknown"
  {
    match r
    case NoData => "Unknown"
    case Stored(id) => if id == 0 then "Unknown" else IntToString(id)
    case Fallback(draw) => if draw == 0 then "Unknown" else IntToString(draw)
  }

  // ---------------------------------------------------------------------------
  // Messages

  const StartRetryText: string := "Welcome! Please try again."
  const WelcomeTail: string := "!\n\nThis is your Customer Support Bot.\n\nSend me your complaint or question and I'll forward it to our admin.\n\nHow can I help you today?"
  const ReplySentText: string := "Reply sent successfully!"
  const ReplyFailedText: string := "Failed to send reply."
  const ErrorText: string := "Sorry, there was an error. Please try again."
  const ReplyHead: string := "Response from Admin:\n\n"
  const ReplyTail: string := "\n\nIf you have more questions, feel free to ask!"
  const Thanks: string := "Thank you for your message!"
  const ConfirmLead: string := "\n\nYour complaint: \""
  const ConfirmHead: string := Thanks + ConfirmLead
  const ConfirmMid: string := "\"\n\nComplaint ID: "
  const ConfirmTail: string := "\n\nI've forwarded this to our admin. You'll receive a response soon!"

  function WelcomeText(firstName: string): string
  {
    "Welcome " + firstName + WelcomeTail
  }

  function ConfirmText(text: string, idText: string): (r: string)
  {
    ConfirmHead + text + ConfirmMid + ("#" + idText) + ConfirmTail
  }

  const NoticeTitle: string := "New Customer Complaint "
  const NoticeUser: string := "\n\nUser: "
  const NoticeHandle: string := " (@"
  const NoHandle: string := "no username"
  const NoticeUserId: string := ")\nUser ID: "
  const NoticeMessage: string := "\nMessage: "
  const NoticeReply: string := "\n\nTo reply: "
  const NoticeEnd: string := " Your response here"

  /** The admin's notice: the complaint's id, who sent it and what, then the
      `/reply` command to answer with. */
  function AdminNotice(u: User, text: string, idText: string): (notice: string)
    ensures Contains(notice, "#" + idText)
    ensures Contains(notice, "/reply " + IntToString(u.id))
  {
    var mid := NoticeUser + u.firstName + NoticeHandle + StrOr(u.username, NoHandle) + NoticeUserId
      + IntToString(u.id) + NoticeMessage + text + NoticeReply;
    var replyCmd := "/reply " + IntToString(u.id);
    ContainsBoth(NoticeTitle, "#" + idText, mid, replyCmd, NoticeEnd);
    NoticeTitle + ("#" + idText) + mid + replyCmd + NoticeEnd
  }

  /** The exact `/start`. */
  predicate IsStart(msg: Message)
  {
    msg.text == Some("/start")
  }

  /** `/reply ` from the sender whose id, as text, is `ADMIN_ID`. */
  predicate IsAdminReply(cfg: WebhookConfig, msg: Message)
  {
    Truthy(msg.text) && StartsWith(msg.text.value, ReplyPrefix) && cfg.adminEnv == Some(IntToString(msg.from.id))
  }

  /** A private text that is not a command, from anyone, the admin included. */
  predicate IsComplaint(msg: Message)
  {
    msg.chat.kind == Private && Truthy(msg.text) && !StartsWith(msg.text.value, "/")
  }

  /** The three branches exclude each other: `/start` and `/reply ` both begin
      with `/`, and differ from each other. */
  lemma BranchesExclusive(cfg: WebhookConfig, msg: Message)
    ensures !(IsStart(msg) && IsAdminReply(cfg, msg))
    ensures !(IsStart(msg) && IsComplaint(msg))
    ensures !(IsAdminReply(cfg, msg) && IsComplaint(msg))
  {
    if Truthy(msg.text) {
      var t := msg.text.value;
      assert StartsWith(t, ReplyPrefix) ==> t[..1] == "/" && t[1] == 'r';
      assert t == "/start" ==> t[..1] == "/";
    }
  }

  /** `handleMessage` of the deployed entry point. `o.storeOk` is the store
      call's result, `o.deliveryOk` whether the first send goes through and
      `o.noticeOk` the second; a failed send inside the `try` is followed by the
      branch's error message. */
  function HandleWebhookMessage(cfg: WebhookConfig, msg: Message, st: Store, o: Outcomes, draw: int): (r: Effects)
    requires 0 <= draw < 1000
    ensures IsStart(msg) ==>
      && r.store == WebhookAddUser(cfg.client, st, msg.from, o.storeOk)
      && r.actions == [Say(ChatId(msg.chat.id), WelcomeText(msg.from.firstName))]
                      + (if o.deliveryOk then [] else [Say(ChatId(msg.chat.id), StartRetryText)])
    ensures IsAdminReply(cfg, msg) ==>
      var cmd := ParseReply(msg.text.value);
      && r.store == st
      && |r.actions| >= 2
      && r.actions[0].Send? && r.actions[0].to == ChatText(cmd.target)
      && Contains(r.actions[0].text, cmd.body)
      && (o.deliveryOk ==> r.actions[1] == Say(ChatId(msg.chat.id), ReplySentText))
      && (!o.deliveryOk ==> r.actions == [r.actions[0], Say(ChatId(msg.chat.id), ReplyFailedText)])
    ensures IsComplaint(msg) ==>
      var filed := WebhookAddComplaint(cfg.client, st, msg.from.id, msg.text.value,
                                       StrOr(msg.from.username, NoUsername), o.storeOk, draw);
      var idText := ComplaintIdText(filed.1);
      && r.store == filed.0
      && |r.actions| >= 1
      && r.actions[0].Send? && r.actions[0].to == ChatId(msg.chat.id)
      && Contains(r.actions[0].text, "#" + idText)
      && Contains(r.actions[0].text, msg.text.value)
      && (!o.deliveryOk ==> r.actions == [r.actions[0], Say(ChatId(msg.chat.id), ErrorText)])
      && (o.deliveryOk && !Truthy(cfg.adminEnv) ==> |r.actions| == 1)
      && (o.deliveryOk && Truthy(cfg.adminEnv) ==>
            && |r.actions| == (if o.noticeOk then 2 else 3)
            && r.actions[1].Send? && r.actions[1].to == ChatText(cfg.adminEnv.value)
            && Contains(r.actions[1].text, "#" + idText)
            && Contains(r.actions[1].text, "/reply " + IntToString(msg.from.id)))
    ensures !IsStart(msg) && !IsAdminReply(cfg, msg) && !IsComplaint(msg) ==> r == Effects(st, [])
  {
    BranchesExclusive(cfg, msg);
    var chat := ChatId(msg.chat.id);
    if IsStart(msg) then
      var stored := WebhookAddUser(cfg.client, st, msg.from, o.storeOk);
      Effects(stored, [Say(chat, WelcomeText(msg.from.firstName))] + (if o.deliveryOk then [] else [Say(chat, StartRetryText)]))
    else if IsAdminReply(cfg, msg) then
      WebhookAdminReply(msg.chat.id, ParseReply(msg.text.value), st, o)
    else if IsComplaint(msg) then
      WebhookComplaint(cfg, msg, st, o, draw)
    else Effects(st, [])
  }

  /** The admin's `/reply`: the reply goes to the target, and the admin hears
      whether it went out. */
  function WebhookAdminReply(chatId: int, cmd: ReplyCommand, st: Store, o: Outcomes): (r: Effects)
    ensures r.store == st
    ensures |r.actions| >= 2
    ensures r.actions[0].Send? && r.actions[0].to == ChatText(cmd.target)
    ensures Contains(r.actions[0].text, cmd.body)
    ensures o.deliveryOk ==> r.actions[1] == Say(ChatId(chatId), ReplySentText)
    ensures !o.deliveryOk ==> r.actions == [r.actions[0], Say(ChatId(chatId), ReplyFailedText)]
  {
    var chat := ChatId(chatId);
    ContainsInfix(ReplyHead, cmd.body, ReplyTail);
    var reply := Say(ChatText(cmd.target), ReplyHead + cmd.body + ReplyTail);
    if !o.deliveryOk then Effects(st, [reply, Say(chat, ReplyFailedText)])
    else if o.noticeOk then Effects(st, [reply, Say(chat, ReplySentText)])
    else Effects(st, [reply, Say(chat, ReplySentText), Say(chat, ReplyFailedText)])
  }

  /** A complaint: stored, confirmed to the customer with its id and text, and
      announced to the admin when one is configured. */
  function WebhookComplaint(cfg: WebhookConfig, msg: Message, st: Store, o: Outcomes, draw: int): (r: Effects)
    requires HasText(msg) && 0 <= draw < 1000
    ensures var filed := WebhookAddComplaint(cfg.client, st, msg.from.id, msg.text.value,
                                             StrOr(msg.from.username, NoUsername), o.storeOk, draw);
      var idText := ComplaintIdText(filed.1);
      && r.store == filed.0
      && |r.actions| >= 1
      && r.actions[0].Send? && r.actions[0].to == ChatId(msg.chat.id)
      && Contains(r.actions[0].text, "#" + idText)
      && Contains(r.actions[0].text, msg.text.value)
      && (!o.deliveryOk ==> r.actions == [r.actions[0], Say(ChatId(msg.chat.id), ErrorText)])
      && (o.deliveryOk && !Truthy(cfg.adminEnv) ==> |r.actions| == 1)
      && (o.deliveryOk && Truthy(cfg.adminEnv) ==>
            && |r.actions| == (if o.noticeOk then 2 else 3)
            && r.actions[1].Send? && r.actions[1].to == ChatText(cfg.adminEnv.value)
            && Contains(r.actions[1].text, "#" + idText)
            && Contains(r.actions[1].text, "/reply " + IntToString(msg.from.id))
            && (!o.noticeOk ==> r.actions[2] == Say(ChatId(msg.chat.id), ErrorText)))
  {
    var chat := ChatId(msg.chat.id);
    var text := msg.text.value;
    var filed := WebhookAddComplaint(cfg.client, st, msg.from.id, text, StrOr(msg.from.username, NoUsername), o.storeOk, draw);
    var idText := ComplaintIdText(filed.1);
    ContainsBoth(ConfirmHead, text, ConfirmMid, "#" + idText, ConfirmTail);
    var confirm := Say(chat, ConfirmText(text, idText));
    if !o.deliveryOk then Effects(filed.0, [confirm, Say(chat, ErrorText)])
    else if !Truthy(cfg.adminEnv) then Effects(filed.0, [confirm])
    else
      var notice := Say(ChatText(cfg.adminEnv.value), AdminNotice(msg.from, text, idText));
      if o.noticeOk then Effects(filed.0, [confirm, notice])
      else Effects(filed.0, [confirm, notice, Say(chat, ErrorText)])
  }

  /** Whether handling the message ends in a send made from one of
      `handleMessage`'s `catch` blocks: the `/start` retry note, the admin's
      failure note, or the customer's apology. */
  predicate EndsInCatchSend(cfg: WebhookConfig, msg: Message, o: Outcomes)
  {
    || (IsStart(msg) && !o.deliveryOk)
    || (IsAdminReply(cfg, msg) && (!o.deliveryOk || !o.noticeOk))
    || (IsComplaint(msg) && (!o.deliveryOk || (Truthy(cfg.adminEnv) && !o.noticeOk)))
  }

  /** One of the three notes sent from a `catch` block. */
  predicate IsCatchNote(a: Action, chat: int)
  {
    a == Say(ChatId(chat), StartRetryText) || a == Say(ChatId(chat), ReplyFailedText) || a == Say(ChatId(chat), ErrorText)
  }

  /** The message handler's last send is a catch-block note exactly when
      `EndsInCatchSend` says so. */
  lemma CatchSendIsLast(cfg: WebhookConfig, msg: Message, st: Store, o: Outcomes, draw: int)
    requires 0 <= draw < 1000
    ensures var e := HandleWebhookMessage(cfg, msg, st, o, draw);
      EndsInCatchSend(cfg, msg, o) <==> |e.actions| > 0 && IsCatchNote(e.actions[|e.actions| - 1], msg.chat.id)
  {
    BranchesExclusive(cfg, msg);
    if IsStart(msg) {
      assert WelcomeText(msg.from.firstName) != StartRetryText by {
        assert WelcomeText(msg.from.firstName)[..8] == "Welcome ";
        assert StartRetryText[..8] == "Welcome!";
      }
      assert WelcomeText(msg.from.firstName)[0] == 'W';
      assert ReplyFailedText[0] == 'F' && ErrorText[0] == 'S';
    } else if IsAdminReply(cfg, msg) {
      assert ReplySentText[0] == 'R' && StartRetryText[0] == 'W' && ReplyFailedText[0] == 'F' && ErrorText[0] == 'S';
    } else if IsComplaint(msg) {
      CatchSendIsLastComplaint(cfg, msg, st, o, draw);
    }
  }

  /** The complaint branch of `CatchSendIsLast`: neither the confirmation nor the
      admin notice reads like a catch-block note. */
  lemma CatchSendIsLastComplaint(cfg: WebhookConfig, msg: Message, st: Store, o: Outcomes, draw: int)
    requires 0 <= draw < 1000 && IsComplaint(msg)
    ensures var e := WebhookComplaint(cfg, msg, st, o, draw);
      (!o.deliveryOk || (Truthy(cfg.adminEnv) && !o.noticeOk)) <==>
        |e.actions| > 0 && IsCatchNote(e.actions[|e.actions| - 1], msg.chat.id)
  {
    var e := WebhookComplaint(cfg, msg, st, o, draw);
    if o.deliveryOk && (!Truthy(cfg.adminEnv) || o.noticeOk) {
      var filed := WebhookAddComplaint(cfg.client, st, msg.from.id, msg.text.value,
                                       StrOr(msg.from.username, NoUsername), o.storeOk, draw);
      var idText := ComplaintIdText(filed.1);
      if !Truthy(cfg.adminEnv) {
        assert e.actions[0] == Say(ChatId(msg.chat.id), ConfirmText(msg.text.value, idText));
        ConfirmOpens(msg.text.value, idText);
      } else {
        var notice := AdminNotice(msg.from, msg.text.value, idText);
        assert e.actions[1] == Say(ChatText(cfg.adminEnv.value), notice);
        NoticeOpens(msg.from, msg.text.value, idText);
      }
      HeadedIsNoNote(e.actions[|e.actions| - 1], msg.chat.id);
    }
  }

  lemma OpeningWords(head: string, rest: string)
    ensures StartsWith(head + rest, head)
  {
    assert (head + rest)[..|head|] == head;
  }

  /** A prefix stays a prefix when more text follows. */
  lemma StillOpens(s: string, head: string, more: string)
    requires StartsWith(s, head)
    ensures StartsWith(s + more, head)
  {
    assert (s + more)[..|head|] == s[..|head|];
  }

  /** The confirmation opens with the thanks. */
  lemma ConfirmOpens(text: string, idText: string)
    ensures StartsWith(ConfirmText(text, idText), Thanks)
  {
    OpeningWords(Thanks, ConfirmLead);
    StillOpens(ConfirmHead, Thanks, text);
    StillOpens(ConfirmHead + text, Thanks, ConfirmMid);
    StillOpens(ConfirmHead + text + ConfirmMid, Thanks, "#" + idText);
    StillOpens(ConfirmHead + text + ConfirmMid + ("#" + idText), Thanks, ConfirmTail);
  }

  /** The admin notice opens with its title. */
  lemma NoticeOpens(u: User, text: string, idText: string)
    ensures StartsWith(AdminNotice(u, text, idText), NoticeTitle)
  {
    var mid := NoticeUser + u.firstName + NoticeHandle + StrOr(u.username, NoHandle) + NoticeUserId
      + IntToString(u.id) + NoticeMessage + text + NoticeReply;
    var replyCmd := "/reply " + IntToString(u.id);
    OpeningWords(NoticeTitle, "#" + idText);
    StillOpens(NoticeTitle + ("#" + idText), NoticeTitle, mid);
    StillOpens(NoticeTitle + ("#" + idText) + mid, NoticeTitle, replyCmd);
    StillOpens(NoticeTitle + ("#" + idText) + mid + replyCmd, NoticeTitle, NoticeEnd);
  }

  /** A send that opens like the confirmation or the admin notice is no
      catch-block note. */
  lemma HeadedIsNoNote(a: Action, chat: int)
    requires a.Send? && (StartsWith(a.text, Thanks) || StartsWith(a.text, NoticeTitle))
    ensures !IsCatchNote(a, chat)
  {
    assert Thanks[0] == 'T' && NoticeTitle[0] == 'N';
    if StartsWith(a.text, Thanks) {
      assert a.text[0] == Thanks[..|Thanks|][0];
    } else {
      assert a.text[0] == NoticeTitle[..|NoticeTitle|][0];
    }
    assert StartRetryText[0] == 'W' && ReplyFailedText[0] == 'F' && ErrorText[0] == 'S';
  }

  /** The exported handler as written: 405 for anything but POST, 500 without a
      bot token; otherwise the message (which wins over a callback) or the
      callback's bare answer. The reply is 200 unless a last-resort call fails:
      a catch-block send or the callback answer rejects into the outer `catch`,
      which answers 500. */
  function HandleRequest(cfg: WebhookConfig, req: Request, st: Store, o: Outcomes, draw: int): (r: Response)
    requires 0 <= draw < 1000
    ensures req.verb != "POST" ==> r == Response(405, st, [])
    ensures req.verb == "POST" && !cfg.botToken ==> r == Response(500, st, [])
    ensures req.verb == "POST" && cfg.botToken ==> r.status == 200 || r.status == 500
    ensures req.verb == "POST" && cfg.botToken && o.rescueOk ==> r.status == 200
    ensures req.verb == "POST" && cfg.botToken && !o.rescueOk && req.update.message.Some? ==>
      (r.status == 500 <==> EndsInCatchSend(cfg, req.update.message.value, o))
    ensures req.verb == "POST" && cfg.botToken && !o.rescueOk && req.update.message.None? ==>
      (r.status == 500 <==> req.update.callback.Some?)
    ensures req.verb == "POST" && cfg.botToken && req.update.message.Some? ==>
      var e := HandleWebhookMessage(cfg, req.update.message.value, st, o, draw);
      r.store == e.store && r.actions == e.actions
    ensures req.verb == "POST" && cfg.botToken && req.update.message.None? && req.update.callback.Some? ==>
      r.store == st && r.actions == [AnswerCallback(req.update.callback.value.id)]
    ensures req.update.message.None? && req.update.callback.None? ==> r.store == st && r.actions == []
  {
    if req.verb != "POST" then Response(405, st, [])
    else if !cfg.botToken then Response(500, st, [])
    else match req.update.message
      case Some(msg) =>
        var e := HandleWebhookMessage(cfg, msg, st, o, draw);
        Response(if EndsInCatchSend(cfg, msg, o) && !o.rescueOk then 500 else 200, e.store, e.actions)
      case None =>
        match req.update.callback
        case Some(q) => Response(if o.rescueOk then 200 else 500, st, [AnswerCallback(q.id)])
        case None => Response(200, st, [])
  }

  /** A failed callback answer turns a well-formed POST into a 500, against the
      rule that the webhook acknowledges every update it was able to read. */
  lemma FailedAnswerGives500(cfg: WebhookConfig, q: CallbackQuery, st: Store)
    requires cfg.botToken
    ensures HandleRequest(cfg, Request("POST", Update(None, Some(q))), st, Outcomes(true, true, true, true, false), 0).status == 500
  {
  }

  /** The handler with its last-resort calls guarded, as the acknowledgement rule
      intends: the same store and calls, and 200 for every POST once a bot token
      is configured, whatever the calls did. */
  function HandleRequestGuarded(cfg: WebhookConfig, req: Request, st: Store, o: Outcomes, draw: int): (r: Response)
    requires 0 <= draw < 1000
    ensures req.verb != "POST" ==> r == Response(405, st, [])
    ensures req.verb == "POST" && !cfg.botToken ==> r == Response(500, st, [])
    ensures req.verb == "POST" && cfg.botToken ==> r.status == 200
    ensures var w := HandleRequest(cfg, req, st, o, draw); r.store == w.store && r.actions == w.actions
  {
    if req.verb != "POST" || !cfg.botToken then HandleRequest(cfg, req, st, o, draw)
    else match req.update.message
      case Some(msg) =>
        var e := HandleWebhookMessage(cfg, msg, st, o, draw);
        Response(200, e.store, e.actions)
      case None =>
        match req.update.callback
        case Some(q) => Response(200, st, [AnswerCallback(q.id)])
        case None => Response(200, st, [])
  }

  /** A complaint filed through a working store is told a real id, never
      `Unknown`; a missing client shows `Unknown` exactly when the draw is 0. */
  lemma ComplaintIdShown(cfg: WebhookConfig, msg: Message, st: Store, o: Outcomes, draw: int)
    requires 0 <= draw < 1000 && IsComplaint(msg)
    ensures var filed := WebhookAddComplaint(cfg.client, st, msg.from.id, msg.text.value,
                                             StrOr(msg.from.username, NoUsername), o.storeOk, draw);
      && (cfg.client == LiveClient && o.storeOk ==> ComplaintIdText(filed.1) == IntToString(filed.1.id))
      && (cfg.client != LiveClient ==> (ComplaintIdText(filed.1) == "Unknown" <==> draw == 0))
  {
    if cfg.client != LiveClient && draw != 0 {
      assert IntToString(draw) != "Unknown" by {
        assert IsDigit(IntToString(draw)[0]);
      }
    }
  }
}
